=== FILE: README.md ===
# API dashboard — a Dafny model of its client-side logic

The dashboard is a Next.js front end for a backend that issues API keys and
runs agents. Visitors sign up, sign in and reset their password. Signed-in users
create, list, regenerate and delete their API keys, and see statistics about
them. An interactive documentation page lists the backend's endpoints. From it
a user can send a test request with their key and copy a code snippet in
JavaScript, Python, Go or curl.

This project models the logic behind those screens. Each source file has one
module:

| module | source |
|---|---|
| `Endpoints` | `lib/endpoints.ts`: the endpoint catalog, lookup by path, grouping by category |
| `ApiDocumentation` | `components/api-documentation.tsx`: selecting an endpoint, building and sending the test request, the code snippets |
| `ApiTester` | `components/api-tester.tsx`: `{key}` substitution, the header map, the response or error kept |
| `Api` | `lib/api.ts`: `handleResponse`, the stored session token, the key operations, `login`/`register`/`logout` |
| `Utils` | `lib/utils.ts`: `getErrorMessage` |
| `AuthGuard` | `components/auth-guard.tsx`: the redirect decision and the `loading` flag |
| `ResetConfirmPage`, `ResetRequestPage`, `RegisterPage`, `LoginPage` | the four authentication forms under `app/auth/` |
| `ApiKeysList`, `CreateApiKeyButton`, `ApiKeyStats`, `CodeBlock` | the key table, the create dialog, the statistics cards and the code block |

Helper modules hold shared definitions:

- `Wrappers`: `Option`, `Result`, `Outcome`.
- `Js`: JavaScript values, truthiness, property access with and without
  optional chaining, and `String()`.
- `Text`: `indexOf`, `String.prototype.replace` with a string pattern,
  `startsWith`, and case-insensitive regular-expression tests.
- `Types`, `Http`, `Ui`: the record shapes of `lib/types.ts`, requests and
  responses, and toasts.

Browser services become inputs and outputs:

- **Calls out.** What `fetch`, `axios`, `JSON.parse` or a stub settles to is a
  parameter: a `Result`, an `Outcome` or an `HttpResponse`.
- **Effects.** A sent request, a toast, a router push or a clipboard write is an
  out-parameter.
- **Stored token.** The `localStorage` entry `authToken` is the field
  `Api.Session.authToken`.
- **Component state.** Each component is a class whose fields are its React
  state. Its handlers are methods whose postconditions give the whole new state.

Three facts about the code shape what the model promises:

- Every request authenticates with `Authorization: Bearer …`. No `x-api-key`
  header is sent anywhere.
- The documentation page looks endpoints up by path alone; the method plays
  no part in the lookup.
- Snippets and the live request are not the same request, so the model relates
  each to the selected endpoint separately:
  - snippets show the unsubstituted path;
  - snippets use `YOUR_API_KEY`;
  - snippets emit `{}` for an empty body, while the live request omits the body.

## Model

| member | source | states |
|---|---|---|
| Utils.GetErrorMessage | lib/utils.ts:19-46 | A falsy error gives the fallback and a non-empty string error is returned as is. Otherwise the result is the fallback or one of `response.data.detail`, `detail` and `message`; no new text is ever built |
| Utils.ResponseDetailFirst | lib/utils.ts:24-35 | A string `response.data.detail` wins over a top-level `detail` and over `message` |
| Utils.DirectDetailBeforeMessage | lib/utils.ts:37-39 | Without a response detail, a string `detail` wins over `message` |
| Utils.MessageThenFallback | lib/utils.ts:41-45 | With neither detail, a string `message` is used; with none of the three, the fallback |
| Utils.PrimitiveGivesFallback | lib/utils.ts:21-45 | `true` or a non-zero number gives the fallback |
| Utils.ThrownErrorMessage | lib/utils.ts:41-43 | An `Error` thrown with message `m` gives `m` |
| Api.HandleResponse | lib/api.ts:6-12 | An ok response yields its parsed body. A failed one is rejected with `String(detail)` when `detail` is truthy, and with "API error: <status> <statusText>" when `detail` is falsy or the body is not JSON; the message is never empty |
| Api.DetailExample | lib/api.ts:7-9 | `{"detail": "Invalid key"}` on a failed response gives exactly "Invalid key" |
| Api.StatusExample | lib/api.ts:8-9 | A 404 without `detail`, or with a body that is not JSON, gives "API error: 404 Not Found" |
| Api.CredentialsBody | lib/api.ts:103 | The sign-in and sign-up body has exactly the keys `email` and `password`, holding the given strings |
| Api.AccessToken | lib/api.ts:106-107 | A rejected response propagates its message; an accepted object body yields its `access_token` |
| Api.AccessTokenExample | lib/api.ts:106-112 | An ok `{"access_token": t, …}` yields `t` |
| Api.RequestPasswordReset | lib/api.ts:135-143 | The stub always resolves |
| Api.ResetPassword | lib/api.ts:146-154 | The stub always resolves |
| Api.Session.IsAuthenticated | lib/api.ts:164-166 | The session is authenticated iff the stored token is truthy, as `!!getAuthToken()` is: a missing or empty token is not |
| Api.Session.constructor | lib/api.ts:15-20 | The session starts with the stored token, if any |
| Api.Session.CreateApiKey | lib/api.ts:23-39 | Without a token: no request, and "Authentication required". Otherwise a POST to `/api-keys` carrying the bearer token, JSON content type and `{description}`; the result is `handleResponse` of the reply |
| Api.Session.FetchApiKeys | lib/api.ts:42-55 | Without a token: no request, and "Authentication required". Otherwise a GET of `/api-keys` with only the bearer header |
| Api.Session.RegenerateApiKey | lib/api.ts:58-72 | Without a token: no request, and "Authentication required". Otherwise a POST to `/api-keys/<id>/regenerate` with the bearer header |
| Api.Session.DeleteApiKey | lib/api.ts:75-92 | Without a token: no request, and "Authentication required". Otherwise a DELETE of `/api-keys/<id>`; an ok reply passes without reading the body, any other fails with the `handleResponse` message |
| Api.Session.Login | lib/api.ts:97-113 | Sends the credentials to `/signin`. The result is the `access_token` of the accepted reply; it is stored as the session token only on success, and a failure leaves the stored token as it was |
| Api.Session.Register | lib/api.ts:116-132 | As `Login` but to `/signup`; the name is not sent |
| Api.Session.StoreToken | lib/api.ts:106-110 | The token is read from the accepted body and written to storage only when both steps succeed |
| Api.Session.Logout | lib/api.ts:157-161 | No token is stored afterwards, so the session is not authenticated |
| Js.Read | lib/api.ts:107 | Reading a property of `null` or `undefined` throws; any other read is the optional-chaining read |
| Js.ErrorObject | lib/api.ts:9 | An `Error` is a truthy object whose `message` is the given text |
| Js.StringObject | lib/api.ts:35 | A string map becomes an object with the same keys and string values |
| Text.IndexOfFrom | components/api-documentation.tsx:62 | The index found is an occurrence, and none comes before it; `None` means there is no occurrence |
| Text.ExpandPlain | components/api-documentation.tsx:62 | A replacement without `$` is inserted verbatim |
| Text.ReplaceAt | components/api-documentation.tsx:62 | Replacing the first occurrence of a pattern edits exactly that occurrence |
| Text.ReplaceWithMatch | components/api-documentation.tsx:62 | Replacing with `$&` puts the match back, so the text is unchanged |
| Text.LowerString | components/api-documentation.tsx:136 | `toLowerCase` lowers each ASCII letter and keeps the length |
| Text.ContainsFoldFrom | app/auth/register/page.tsx:67 | A case-insensitive test holds iff the pattern matches somewhere at or after the start, ignoring case |
| Text.NoFoldMatch | app/auth/register/page.tsx:67 | A pattern letter that no character of the text folds to rules out a match |
| Text.ContainsFoldSuffix | app/auth/register/page.tsx:70-73 | A text matching `/confirm password/i` also matches `/password/i` |
| Endpoints.FindIndex | components/api-documentation.tsx:27 | The index found holds the path, and no earlier entry does; `None` means no entry has the path |
| Endpoints.FindByPath | components/api-documentation.tsx:27 | An entry is found iff some entry has the path. The entry found has that path, and no earlier entry does |
| Endpoints.LookupByOwnPath | components/api-documentation.tsx:27 | With distinct paths, looking up an entry's own path finds that entry |
| Endpoints.SingleParamWellFormed | lib/endpoints.ts:5-9 | A path written `pre{name}post` with the single parameter `name` is well formed |
| Endpoints.StartAgentWellFormed | lib/endpoints.ts:5-9 | `thread_id` occurs as `{thread_id}` in the start path |
| Endpoints.StopAgentWellFormed | lib/endpoints.ts:20-24 | `agent_run_id` occurs as `{agent_run_id}` in the stop path |
| Endpoints.AgentRunsWellFormed | lib/endpoints.ts:28-32 | `thread_id` occurs as `{thread_id}` in the agent-runs path |
| Endpoints.CatalogWellFormed | lib/endpoints.ts:3-51 | Every declared path parameter occurs as a placeholder, and entries without parameters contain no `{` |
| Endpoints.CatalogPathsDistinct | lib/endpoints.ts:5-44 | Paths are pairwise distinct, so lookup by path finds each entry |
| Endpoints.CatalogMethods | lib/endpoints.ts:6-45 | Every method is GET or POST; a GET entry can only be the third, and it has no request body |
| Endpoints.CategoriesMembers | lib/endpoints.ts:8-47 | Grouping by category lists each category of the catalog exactly once, and nothing else |
| Endpoints.InCategoryMembers | lib/endpoints.ts:8-47 | A category's group holds exactly the entries of that category |
| Endpoints.CatalogCategories | lib/endpoints.ts:8-47 | The catalog's categories are "Agent Management", then "Authentication" |
| Endpoints.CatalogAgentGroup | lib/endpoints.ts:4-34 | "Agent Management" holds the first three entries, in declaration order |
| Endpoints.CatalogAuthenticationGroup | lib/endpoints.ts:35-50 | "Authentication" holds the last two entries, in declaration order |
| ApiDocumentation.TargetUrl | components/api-documentation.tsx:55-65 | Computing the URL fails iff the entry has path parameters and the body does not parse or parses to `null`. A parse failure passes its message through. Without path parameters it never fails, whatever the body |
| ApiDocumentation.BuildUrl | components/api-documentation.tsx:55-65 | The `forEach` loop computes `TargetUrl`. Each parameter with a truthy value replaces the first `{param}` of the URL; a body that does not parse, or reading from a `null` body, fails |
| ApiDocumentation.NoValuesKeepsUrl | components/api-documentation.tsx:60-64 | Parameters without a truthy value leave their placeholders in place |
| ApiDocumentation.PlainPathUrl | components/api-documentation.tsx:55-58 | Without path parameters the URL is the production base plus the path, and the body is not parsed |
| ApiDocumentation.UnparsableBodyFails | components/api-documentation.tsx:58-59 | With path parameters, a body that is not JSON, or is `null`, fails the request |
| ApiDocumentation.SingleParamUrl | components/api-documentation.tsx:60-63 | A single placeholder with a non-empty value free of `$` is replaced by that value |
| ApiDocumentation.SingleParamRequest | components/api-documentation.tsx:55-64 | The URL of an entry `pre{name}post` with value `v` is the base plus `pre v post` |
| ApiDocumentation.StartAgentExample | components/api-documentation.tsx:55-64 | `{"thread_id": "abc123"}` sends the start request to `…/api/thread/abc123/agent/start` |
| ApiDocumentation.OrElse | components/api-documentation.tsx:112 | `requestBody \|\| fallback` (here and at lines 134, 159 and 188) is never empty. A non-empty body is returned as is, and an empty body gives exactly the fallback, `{}` or the Go empty payload |
| ApiDocumentation.LanguageOf | components/api-documentation.tsx:99-193 | Exactly the four names "javascript", "python", "go" and "curl" select a template |
| ApiDocumentation.GetCodeSnippet | components/api-documentation.tsx:94-195 | A known language's snippet opens with that language's preamble, followed directly by the production base and the path. Any other language gets exactly the fixed "not available" text |
| ApiDocumentation.SnippetUrl | components/api-documentation.tsx:94-193 | Every snippet contains the production base followed by the unsubstituted path. Any other language gets exactly the fixed "not available" text |
| ApiDocumentation.SnippetMethod | components/api-documentation.tsx:99-190 | The JavaScript, Go and curl snippets contain the method name |
| ApiDocumentation.GetSnippetIgnoresBody | components/api-documentation.tsx:94-190 | A GET snippet does not depend on the request body |
| ApiDocumentation.SnippetCarriesBody | components/api-documentation.tsx:94-190 | A non-GET snippet contains the request body, or `{}` (Go: `[]byte("{}")`) when the body is empty |
| ApiDocumentation.PythonSnippetCall | components/api-documentation.tsx:132-138 | The Python snippet calls `requests.<lower-case method>(url` |
| ApiDocumentation.PythonPost | components/api-documentation.tsx:136 | For POST that call is `requests.post(url` |
| ApiDocumentation.CurlSnippetMethod | components/api-documentation.tsx:181-183 | The curl snippet begins with `curl -X <method>` |
| ApiDocumentation.TestRequest | components/api-documentation.tsx:67-77 | The headers are exactly `Authorization: Bearer <key>` and `Content-Type: application/json`. A body is attached iff the method is not GET and the body is non-empty |
| ApiDocumentation.CatalogSelectionClearsBody | components/api-documentation.tsx:30 | No catalog entry has a default body, so selecting one empties the request body |
| ApiDocumentation.Explorer.constructor | components/api-documentation.tsx:18-23 | The first catalog entry is selected; the key and body are empty, the response is `null` and the language is JavaScript |
| ApiDocumentation.Explorer.HandleEndpointChange | components/api-documentation.tsx:26-33 | A known path selects the first entry with that path, loads its default body or "", and clears the response. An unknown path changes nothing |
| ApiDocumentation.Explorer.HandleCopyCode | components/api-documentation.tsx:35-41 | The snippet goes to the clipboard with a "Copied!" toast |
| ApiDocumentation.Explorer.HandleTestEndpoint | components/api-documentation.tsx:43-92 | Without a key: no request, a destructive toast, and response and loading unchanged. Otherwise the request goes to `TargetUrl`; a reply replaces the response, any failure toasts "Request Failed" and keeps it, and loading ends false |
| ApiTester.Substitute | components/api-tester.tsx:29 | Substitution adds no text of its own. Every character of the URL comes from the template or from a typed-in value |
| ApiTester.UnclosedStretchKept | components/api-tester.tsx:29 | A stretch with no `}` that ends at a line terminator or at the end of the text is kept verbatim, each `{` in it included, because no placeholder can close there. The scan then goes on after the stretch |
| ApiTester.CloseFrom | components/api-tester.tsx:29 | The lazy group ends at the first `}` not preceded by a line terminator; `None` when no `}` can close it |
| ApiTester.NoPlaceholderUnchanged | components/api-tester.tsx:29 | A template without `{` is unchanged |
| ApiTester.NoValuesUnchanged | components/api-tester.tsx:29 | When no value is non-empty, every `{key}` is kept verbatim and the template is unchanged |
| ApiTester.SubstituteAfterPlain | components/api-tester.tsx:29 | Text without `{` passes through, and substitution continues after it |
| ApiTester.PlaceholderReplaced | components/api-tester.tsx:29 | A `{key}` becomes its non-empty value, or stays `{key}`; the inserted value is not scanned again |
| ApiTester.UserExample | components/api-tester.tsx:29 | `/users/{id}` becomes `/users/42` with id 42, and stays as it is without a value |
| ApiTester.BuildHeaders | components/api-tester.tsx:33-36 | The header map's keys are exactly the header names. Each maps to its typed-in value, or "" |
| ApiTester.ErrorFor | components/api-tester.tsx:42-46 | An Axios error gives its reply body if there is one, else its message; anything else gives "An unknown error occurred." |
| ApiTester.Tester.constructor | components/api-tester.tsx:16-19 | Response and error start `null`, and no values are typed in |
| ApiTester.Tester.HandleInputChange | components/api-tester.tsx:21-24 | Only the named entry changes |
| ApiTester.Tester.HandleTestApi | components/api-tester.tsx:26-48 | The error is cleared first. The request goes to the substituted template with the header map, and carries the values as data unless the method is GET. Success sets the response; failure sets the error and keeps the response |
| AuthGuard.Redirect | components/auth-guard.tsx:24-29 | Login iff not authenticated and not on `/auth/`. Dashboard iff authenticated and on `/auth/`. Otherwise no redirect. A missing pathname is not an auth page |
| AuthGuard.RedirectSettles | components/auth-guard.tsx:24-29 | After a redirect, the same session is not redirected again |
| AuthGuard.Guard.constructor | components/auth-guard.tsx:16 | The guard starts loading |
| AuthGuard.Guard.CheckAuth | components/auth-guard.tsx:20-32 | The push is `Redirect` of the session and the pathname, and loading ends false |
| CodeBlock.LanguageClass | components/code-block.tsx:38-51 | javascript, python and go give their own class; curl gives `language-bash`; anything else gives `language-javascript` |
| CodeBlock.CopyToClipboard | components/code-block.tsx:16-24 | Non-empty text is copied, and "Copied to clipboard!" shows once the write resolves. Empty text copies nothing and shows "Nothing to copy!" |
| ResetConfirmPage.Utf16Length | app/auth/reset-password/confirm/page.tsx:32 | `length` counts UTF-16 code units: between the number of characters and twice that |
| ResetConfirmPage.Validate | app/auth/reset-password/confirm/page.tsx:28-39 | The checks run in order: the token, then at least 6 code units, then the confirmation match. Nothing is reported iff all pass |
| ResetConfirmPage.LengthCheckExamples | app/auth/reset-password/confirm/page.tsx:32-35 | Six letters pass and five fail. Three emoji pass, since they are six code units |
| ResetConfirmPage.ResetConfirmForm.constructor | app/auth/reset-password/confirm/page.tsx:15-23 | A missing `token` query parameter counts as "" |
| ResetConfirmPage.ResetConfirmForm.HandleSubmit | app/auth/reset-password/confirm/page.tsx:25-54 | The request is made iff validation passes. A failed check sets its message and leaves loading unchanged. Success sets `success` and schedules the move to login; a rejection shows the error message with "Could not reset password." as fallback. Loading ends false |
| ResetRequestPage.ResetRequestForm.constructor | app/auth/reset-password/page.tsx:16-18 | The form starts empty and not submitted |
| ResetRequestPage.ResetRequestForm.HandleSubmit | app/auth/reset-password/page.tsx:21-39 | Success and failure both end submitted, with the form hidden and not loading; only success shows a toast |
| ResetRequestPage.ResetRequestForm.TryAgain | app/auth/reset-password/page.tsx:116 | The form is shown again and the address kept |
| RegisterPage.FieldErrorsFor | app/auth/register/page.tsx:67-75 | The message goes under the email field iff it matches `/email/i`, under the password field iff it matches `/password/i` but not `/confirm password/i`, and under the confirmation field iff it matches `/confirm password/i`; every other field is empty |
| RegisterPage.PasswordFieldsExclusive | app/auth/register/page.tsx:70-75 | A message mentioning a password goes under exactly one of the two password fields |
| RegisterPage.ConfirmPasswordExample | app/auth/register/page.tsx:67-75 | "Confirm Password is required" goes under the confirmation field only |
| RegisterPage.RegisterForm.constructor | app/auth/register/page.tsx:19-28 | Empty fields, terms not accepted, no errors |
| RegisterPage.RegisterForm.HandleSubmit | app/auth/register/page.tsx:32-84 | Differing passwords, then unaccepted terms, stop with their toast and no request. Otherwise field errors are cleared and `/signup` gets only the email and password. Success goes to check-email; failure shows the message and routes it to the fields it mentions. Loading ends false |
| LoginPage.UnconfirmedExample | app/auth/login/page.tsx:41 | "Email not confirmed" and the panel's default text match `/email not confirmed/i` |
| LoginPage.LoginForm.constructor | app/auth/login/page.tsx:18-24 | Empty fields, no error, not unconfirmed |
| LoginPage.LoginForm.PanelText | app/auth/login/page.tsx:71 | The panel shows the error message, or the default text when it is empty; never empty |
| LoginPage.LoginForm.InlineError | app/auth/login/page.tsx:116-118 | The inline error shows iff there is a message and the panel is not shown |
| LoginPage.LoginForm.HandleSubmit | app/auth/login/page.tsx:26-54 | Sends the credentials to `/signin`. Success toasts and goes to the dashboard. Failure records the message; `unconfirmed` holds iff it matches `/email not confirmed/i`, and a toast shows iff it does not. Loading ends false |
| ApiKeysList.DescriptionCell | components/api-keys-list.tsx:151 | The description when it is non-empty; "No description" when it is missing or empty |
| ApiKeysList.LastUsedCell | components/api-keys-list.tsx:153 | "Never" iff the key has no truthy `last_used` |
| ApiKeysList.NeverAgreesWithStats | components/api-keys-list.tsx:153 | Every row shows "Never" iff the statistics card shows "Never" |
| ApiKeysList.KeyList.constructor | components/api-keys-list.tsx:24-30 | No keys, loading, no pending ids, both dialogs closed |
| ApiKeysList.KeyList.LoadApiKeys | components/api-keys-list.tsx:33-50 | Only a truthy list replaces the keys. A failure keeps them and toasts. Loading ends false |
| ApiKeysList.KeyList.HandleCopyKey | components/api-keys-list.tsx:56-62 | The key goes to the clipboard with a "Copied!" toast |
| ApiKeysList.KeyList.HandleRegenerateClick | components/api-keys-list.tsx:64-67 | Stores the id and opens the regenerate dialog; the delete slot is untouched |
| ApiKeysList.KeyList.HandleDeleteClick | components/api-keys-list.tsx:69-72 | Stores the id and opens the delete dialog; the regenerate slot is untouched |
| ApiKeysList.KeyList.ConfirmRegenerate | components/api-keys-list.tsx:74-96 | Nothing without a pending non-empty id. Otherwise success shows the new `api_key`, reloads and toasts; failure keeps the shown key and toasts an error. Either way the dialog closes and the id is cleared. `loading` ends false after a successful reload and is otherwise untouched |
| ApiKeysList.KeyList.ConfirmDelete | components/api-keys-list.tsx:98-119 | Nothing without a pending non-empty id. Otherwise success reloads and toasts, and failure toasts an error. Either way the dialog closes and the id is cleared. `loading` ends false after a successful reload and is otherwise untouched |
| CreateApiKeyButton.CreatedKey | components/create-api-key-button.tsx:34-35 | Without a session, creation fails. A rejected reply fails with the `handleResponse` message. An accepted `null` body fails, because reading `api_key` from it throws. An accepted object body yields its `api_key` |
| CreateApiKeyButton.CreateDialog.constructor | components/create-api-key-button.tsx:23-26 | Closed, empty, not loading, no key |
| CreateApiKeyButton.CreateDialog.SetOpen | components/create-api-key-button.tsx:69 | Only `open` changes |
| CreateApiKeyButton.CreateDialog.HandleSubmit | components/create-api-key-button.tsx:29-50 | POSTs the description. Success keeps the returned key; failure leaves the key unchanged and toasts an error. Loading ends false |
| CreateApiKeyButton.CreateDialog.HandleCopyKey | components/create-api-key-button.tsx:52-60 | Copies and toasts only when there is a key |
| CreateApiKeyButton.CreateDialog.HandleClose | components/create-api-key-button.tsx:62-66 | Closes the dialog and forgets the description and the key, so the form shows again |
| ApiKeyStats.UsedDates | components/api-key-stats.tsx:24 | Holds exactly the truthy `last_used` texts; empty iff no key was used |
| ApiKeyStats.MaxTime | components/api-key-stats.tsx:27 | The maximum is defined iff every date parses. It is then one of the times and at least every other |
| ApiKeyStats.ComputeStats | components/api-key-stats.tsx:20-30 | Both counts are the number of keys. "Never" iff no key was used; "Invalid Date" iff a used date does not parse; otherwise the latest use |
| ApiKeyStats.StatsExample | components/api-key-stats.tsx:24-28 | Of three keys, one never used, the later use is reported |
| ApiKeyStats.KeyStats.constructor | components/api-key-stats.tsx:9-13 | The stats start at 0, 0, "Never" |
| ApiKeyStats.KeyStats.GetStats | components/api-key-stats.tsx:16-41 | A fetched list replaces the stats with `ComputeStats`; a failure or falsy body leaves them unchanged |

## Left out

- JSON arrays are not values of `Js.Value`. Key lists arrive as already-decoded `seq<ApiKey>` parameters, with `None` for a falsy body.
- JSON numbers are integers; floating point is not modelled.
- `JSON.parse` and `JSON.stringify` are not modelled: bodies are opaque strings or values handed in already parsed. The catalog's `JSON.stringify(…, null, 2)` texts are written out as constants.
- A rejected `fetch` (network failure) in the lib/api.ts functions is not modelled: `HttpResponse` always carries a status, so `Api.Session` methods only see replies. The components' `Result` and `Outcome` parameters do include a rejection in their failure case.
- Dates are not modelled. `new Date(text)` is the `timeOf` parameter, an invalid date is `None`, and `toLocaleDateString` and `formatDate` are left out, so the statistics card holds a time rather than text.
- Property reads see own properties only: inherited properties (e.g. `length` of a string) and property reads on strings and numbers are not modelled.
- The no-`window` branch of `getAuthToken` and `logout` (server-side rendering) is left out.
- Concurrency is not modelled: overlapping submissions, late responses, timers (the 2000 ms redirect after a password reset and the stubs' delays) and the un-awaited clipboard writes in `handleCopyCode` and `handleCopyKey`.
- Console logging, Prism highlighting, `cn`, and all JSX presentation are left out.
- The documentation page imports `endpoints` from lib/endpoints.ts, which exports only `updatedEndpoints`. `ApiDocumentation.Explorer` therefore takes its catalog as a constructor parameter. That catalog must be non-empty, since the page starts with its first entry selected.
- `String.prototype.replace` with a string pattern expands `$$`, `$&`, `` $` `` and `$'`. The model follows this (`Text.Expand`). The single-parameter lemmas assume values free of `$`.
- `/…/i` tests fold ASCII letters only; the patterns the forms use are ASCII.
- The generic tester in components/api-tester.tsx sends the typed-in values as data. The model records them as a JSON object of strings.

=== FILE: api.dfy ===
/** The backend client of lib/api.ts: response handling, the session token
    kept in browser storage, and the authenticated key operations. */
module Api {
  import opened Wrappers
  import opened Js
  import opened Types
  import opened Http

  const BaseUrl := "http://localhost:8000/api"
  const AuthRequired := "Authentication required"
  const JsonContent := map["Content-Type" := "application/json"]

  /** `errorData?.detail`, where `errorData` is the parsed body of a failed
      response or `null` when the body is not JSON. */
  function ErrorDetail(response: HttpResponse): Value {
    match response.body
    case Success(v) => Get(v, "detail")
    case Failure(_) => Undefined
  }

  function ApiErrorText(status: int, statusText: string): string {
    "API error: " + IntToString(status) + " " + statusText
  }

  /** The message a failed response is rejected with: its truthy `detail`, or
      the generic status line. */
  function FailureMessage(response: HttpResponse): string {
    var detail := ErrorDetail(response);
    if Truthy(detail) then ToDisplay(detail) else ApiErrorText(response.status, response.statusText)
  }

  /** `handleResponse`: an ok response settles to its parsed body (a body that
      does not parse rejects with the parser's error), any other is rejected. */
  function HandleResponse(response: HttpResponse): (r: Result<Value, string>)
    ensures response.ok ==> r == response.body
    ensures !response.ok ==> r.Failure? && r.error != ""
    ensures !response.ok && ErrorDetail(response).Str? && ErrorDetail(response).s != "" ==>
      r == Failure(ErrorDetail(response).s)
    ensures !response.ok && Truthy(ErrorDetail(response)) ==>
      r == Failure(ToDisplay(ErrorDetail(response)))
    ensures !response.ok && !Truthy(ErrorDetail(response)) ==>
      r == Failure(ApiErrorText(response.status, response.statusText))
  {
    if !response.ok then Failure(FailureMessage(response)) else response.body
  }

  /** A failed response whose body is `{"detail": "Invalid key"}` is rejected
      with exactly that text. */
  lemma DetailExample(status: int, statusText: string)
    ensures HandleResponse(HttpResponse(false, status, statusText,
      Success(Obj(map["detail" := Str("Invalid key")])))) == Failure("Invalid key")
  {
  }

  /** A 404 whose body has no `detail` is rejected with "API error: 404 Not Found". */
  lemma StatusExample()
    ensures HandleResponse(HttpResponse(false, 404, "Not Found", Success(Obj(map[]))))
      == Failure("API error: 404 Not Found")
    ensures HandleResponse(HttpResponse(false, 404, "Not Found", Failure("Unexpected token")))
      == Failure("API error: 404 Not Found")
  {
    assert IntToString(404) == "404";
    assert ApiErrorText(404, "Not Found") == "API error: 404 Not Found";
    var empty := HttpResponse(false, 404, "Not Found", Success(Obj(map[])));
    assert !Has(Obj(map[]), "detail");
    assert ErrorDetail(empty) == Undefined;
  }

  /** `JSON.stringify({ description })`: an absent description is left out. */
  function DescriptionBody(description: Option<string>): Value {
    match description
    case Some(d) => StringObject(map["description" := d])
    case None => StringObject(map[])
  }

  /** `JSON.stringify({ email, password })`. */
  function CredentialsBody(email: string, password: string): (r: Value)
    ensures r.Obj? && r.fields.Keys == {"email", "password"}
    ensures Get(r, "email") == Str(email) && Get(r, "password") == Str(password)
  {
    StringObject(map["email" := email, "password" := password])
  }

  /** What `login` and `register` settle to: the `access_token` of the accepted
      body (reading it from a `null` body throws). */
  function AccessToken(response: HttpResponse): (r: Result<Value, string>)
    ensures HandleResponse(response).Failure? ==> r == Failure(HandleResponse(response).error)
    ensures HandleResponse(response).Success? && HandleResponse(response).value.Obj? ==>
      r == Success(Get(HandleResponse(response).value, "access_token"))
  {
    match HandleResponse(response)
    case Failure(e) => Failure(e)
    case Success(data) => Read(data, "access_token")
  }

  /** An ok response `{"access_token": t, ...}` yields `t`. */
  lemma AccessTokenExample(t: string, rest: map<string, Value>)
    ensures AccessToken(HttpResponse(true, 200, "OK", Success(Obj(rest["access_token" := Str(t)]))))
      == Success(Str(t))
  {
  }

  /** `requestPasswordReset`: a stub that always resolves after a delay. */
  method RequestPasswordReset(email: string) returns (r: Outcome<Value>)
    ensures r.Pass?
  {
    r := Pass;
  }

  /** `resetPassword`: a stub that always resolves after a delay. */
  method ResetPassword(token: string, newPassword: string) returns (r: Outcome<Value>)
    ensures r.Pass?
  {
    r := Pass;
  }

  /** The browser storage entry "authToken", and every operation that reads or
      writes it. */
  class Session {
    var authToken: Option<string>

    constructor (stored: Option<string>)
      ensures authToken == stored
    {
      authToken := stored;
    }

    /** `isAuthenticated`: a non-empty token is stored. */
    predicate IsAuthenticated()
      reads this
      ensures IsAuthenticated() <==> Truthy(if authToken.Some? then Str(authToken.value) else Null)
    {
      authToken.Some? && authToken.value != ""
    }

    function Bearer(): string
      reads this
      requires IsAuthenticated()
    {
      "Bearer " + authToken.value
    }

    /** `createApiKey`: POST to /api-keys with the token and a JSON body. */
    method CreateApiKey(description: Option<string>, response: HttpResponse)
      returns (sent: Option<Request>, r: Result<Value, string>)
      ensures !IsAuthenticated() ==> sent.None? && r == Failure(AuthRequired)
      ensures IsAuthenticated() ==>
        sent == Some(Request(POST, BaseUrl + "/api-keys",
          JsonContent["Authorization" := Bearer()], Some(Json(DescriptionBody(description)))))
        && r == HandleResponse(response)
    {
      if !IsAuthenticated() {
        return None, Failure(AuthRequired);
      }
      sent := Some(Request(POST, BaseUrl + "/api-keys",
        map["Content-Type" := "application/json", "Authorization" := "Bearer " + authToken.value],
        Some(Json(DescriptionBody(description)))));
      r := HandleResponse(response);
    }

    /** `fetchApiKeys`: GET /api-keys with the token. */
    method FetchApiKeys(response: HttpResponse) returns (sent: Option<Request>, r: Result<Value, string>)
      ensures !IsAuthenticated() ==> sent.None? && r == Failure(AuthRequired)
      ensures IsAuthenticated() ==>
        sent == Some(Request(GET, BaseUrl + "/api-keys", map["Authorization" := Bearer()], None))
        && r == HandleResponse(response)
    {
      if !IsAuthenticated() {
        return None, Failure(AuthRequired);
      }
      sent := Some(Request(GET, BaseUrl + "/api-keys", map["Authorization" := "Bearer " + authToken.value], None));
      r := HandleResponse(response);
    }

    /** `regenerateApiKey`: POST /api-keys/<id>/regenerate with the token. */
    method RegenerateApiKey(keyId: string, response: HttpResponse)
      returns (sent: Option<Request>, r: Result<Value, string>)
      ensures !IsAuthenticated() ==> sent.None? && r == Failure(AuthRequired)
      ensures IsAuthenticated() ==>
        sent == Some(Request(POST, BaseUrl + "/api-keys/" + keyId + "/regenerate",
          map["Authorization" := Bearer()], None))
        && r == HandleResponse(response)
    {
      if !IsAuthenticated() {
        return None, Failure(AuthRequired);
      }
      sent := Some(Request(POST, BaseUrl + "/api-keys/" + keyId + "/regenerate",
        map["Authorization" := "Bearer " + authToken.value], None));
      r := HandleResponse(response);
    }

    /** `deleteApiKey`: DELETE /api-keys/<id> with the token; the body of an ok
        response is not read. */
    method DeleteApiKey(keyId: string, response: HttpResponse) returns (sent: Option<Request>, r: Outcome<string>)
      ensures !IsAuthenticated() ==> sent.None? && r == Fail(AuthRequired)
      ensures IsAuthenticated() ==>
        sent == Some(Request(DELETE, BaseUrl + "/api-keys/" + keyId, map["Authorization" := Bearer()], None))
      ensures IsAuthenticated() && response.ok ==> r == Pass
      ensures IsAuthenticated() && !response.ok ==> r == Fail(HandleResponse(response).error)
    {
      if !IsAuthenticated() {
        return None, Fail(AuthRequired);
      }
      sent := Some(Request(DELETE, BaseUrl + "/api-keys/" + keyId, map["Authorization" := "Bearer " + authToken.value], None));
      if !response.ok {
        r := Fail(FailureMessage(response));
      } else {
        r := Pass;
      }
    }

    /** `login`: POST the credentials to /signin; the token is stored only once
        the response has been accepted, and the same token is returned. */
    method Login(email: string, password: string, response: HttpResponse)
      returns (sent: Request, r: Result<Value, string>)
      modifies this
      ensures sent == Request(POST, BaseUrl + "/signin", JsonContent, Some(Json(CredentialsBody(email, password))))
      ensures r == AccessToken(response)
      ensures r.Success? ==> authToken == Some(ToDisplay(r.value))
      ensures r.Failure? ==> authToken == old(authToken)
    {
      sent := Request(POST, BaseUrl + "/signin", JsonContent, Some(Json(CredentialsBody(email, password))));
      r := StoreToken(response);
    }

    /** `register`: POST only the email and password to /signup (the name is
        not sent); the token is stored only once the response has been accepted. */
    method Register(name: string, email: string, password: string, response: HttpResponse)
      returns (sent: Request, r: Result<Value, string>)
      modifies this
      ensures sent == Request(POST, BaseUrl + "/signup", JsonContent, Some(Json(CredentialsBody(email, password))))
      ensures r == AccessToken(response)
      ensures r.Success? ==> authToken == Some(ToDisplay(r.value))
      ensures r.Failure? ==> authToken == old(authToken)
    {
      sent := Request(POST, BaseUrl + "/signup", JsonContent, Some(Json(CredentialsBody(email, password))));
      r := StoreToken(response);
    }

    /** The common tail of `login` and `register`: `handleResponse`, read
        `access_token`, `localStorage.setItem("authToken", token)`. */
    method StoreToken(response: HttpResponse) returns (r: Result<Value, string>)
      modifies this
      ensures r == AccessToken(response)
      ensures r.Success? ==> authToken == Some(ToDisplay(r.value))
      ensures r.Failure? ==> authToken == old(authToken)
    {
      var data := HandleResponse(response);
      if data.Failure? {
        return Failure(data.error);
      }
      r := Read(data.value, "access_token");
      if r.Success? {
        authToken := Some(ToDisplay(r.value));
      }
    }

    /** `logout`: the stored token is removed. */
    method Logout()
      modifies this
      ensures authToken.None? && !IsAuthenticated()
    {
      authToken := None;
    }
  }
}

=== FILE: api_documentation.dfy ===
/** The interactive documentation page of components/api-documentation.tsx:
    choosing a descriptor, sending a test request to the production backend,
    and the code snippets shown for the chosen descriptor. */
module ApiDocumentation {
  import opened Wrappers
  import opened Text
  import opened Js
  import opened Types
  import opened Http
  import opened Ui
  import opened Endpoints

  const ProductionUrl := "https://bilic-manus-production.up.railway.app"
  const NoSnippet := "// Code snippet not available for this language"

  /** One step of the path-parameter loop: a truthy value for `param` replaces
      the first `{param}` of the URL by its string form. */
  function SubstituteParam(url: string, values: Value, param: string): string {
    var v := Get(values, param);
    if Truthy(v) then ReplaceFirst(url, Token(param), ToDisplay(v)) else url
  }

  /** The path-parameter loop over `params`, in order. */
  function SubstituteAll(url: string, values: Value, params: seq<string>): string
    decreases |params|
  {
    if |params| == 0 then url
    else SubstituteAll(SubstituteParam(url, values, params[0]), values, params[1..])
  }

  /** The URL a test request goes to, or the message of the error thrown while
      computing it. The request body is parsed only when the descriptor
      declares path parameters; `parsed` is what `JSON.parse` makes of it. */
  function TargetUrl(e: Endpoint, parsed: Result<Value, string>): (r: Result<string, string>)
    ensures r.Failure? <==>
      e.pathParams.Some? && |e.pathParams.value| > 0 &&
      (parsed.Failure? || parsed.value.Null? || parsed.value.Undefined?)
    ensures r.Failure? && parsed.Failure? ==> r.error == parsed.error
  {
    var url := ProductionUrl + e.path;
    match e.pathParams
    case None => Success(url)
    case Some(params) =>
      if |params| == 0 then Success(url)
      else match parsed
        case Failure(m) => Failure(m)
        case Success(values) =>
          match Read(values, params[0])
          case Failure(m) => Failure(m)
          case Success(_) => Success(SubstituteAll(url, values, params))
  }

  /** Builds the test URL with the source's loop (each parameter's value is
      read afresh, and a read from `null` throws). */
  method BuildUrl(e: Endpoint, parsed: Result<Value, string>) returns (r: Result<string, string>)
    ensures r == TargetUrl(e, parsed)
  {
    var url := ProductionUrl + e.path;
    if e.pathParams.None? || |e.pathParams.value| == 0 {
      return Success(url);
    }
    var params := e.pathParams.value;
    if parsed.Failure? {
      return Failure(parsed.error);
    }
    var values := parsed.value;
    var i := 0;
    while i < |params|
      invariant 0 <= i <= |params|
      invariant i > 0 ==> !values.Null? && !values.Undefined?
      invariant i > 0 ==> Read(values, params[0]).Success?
      invariant SubstituteAll(url, values, params[i..]) == SubstituteAll(ProductionUrl + e.path, values, params)
    {
      var v := Read(values, params[i]);
      if v.Failure? {
        return Failure(v.error);
      }
      if Truthy(v.value) {
        url := ReplaceFirst(url, Token(params[i]), ToDisplay(v.value));
      }
      assert params[i..][1..] == params[i + 1..];
      i := i + 1;
    }
    assert params[i..] == [];
    r := Success(url);
  }

  /** Parameters without a truthy value leave the URL as it is. */
  lemma {:induction false} NoValuesKeepsUrl(url: string, values: Value, params: seq<string>)
    requires forall k :: 0 <= k < |params| ==> !Truthy(Get(values, params[k]))
    ensures SubstituteAll(url, values, params) == url
    decreases |params|
  {
    if |params| > 0 {
      assert !Truthy(Get(values, params[0]));
      NoValuesKeepsUrl(url, values, params[1..]);
    }
  }

  /** A descriptor without path parameters is sent to the production URL of
      its path, whatever the body holds (it is not parsed). */
  lemma PlainPathUrl(e: Endpoint, parsed: Result<Value, string>)
    requires e.pathParams.None? || e.pathParams == Some([])
    ensures TargetUrl(e, parsed) == Success(ProductionUrl + e.path)
  {
  }

  /** A body that is not JSON, or that is `null`, fails the request of a
      descriptor with path parameters. */
  lemma UnparsableBodyFails(e: Endpoint, parsed: Result<Value, string>)
    requires e.pathParams.Some? && |e.pathParams.value| > 0
    requires parsed.Failure? || parsed == Success(Null)
    ensures TargetUrl(e, parsed).Failure?
  {
  }

  /** A single placeholder whose value is a non-empty string free of `$` is
      replaced by that string. */
  lemma SingleParamUrl(pre: string, name: string, post: string, value: string, values: map<string, Value>)
    requires '{' !in ProductionUrl + pre && value != "" && '$' !in value
    requires name in values && values[name] == Str(value)
    ensures SubstituteAll(ProductionUrl + pre + Token(name) + post, Obj(values), [name])
      == ProductionUrl + pre + value + post
  {
    var url := ProductionUrl + pre + Token(name) + post;
    assert url == (ProductionUrl + pre) + Token(name) + post;
    ReplaceAt(ProductionUrl + pre, Token(name), post, value);
    assert SubstituteParam(url, Obj(values), name) == ProductionUrl + pre + value + post;
    assert [name][1..] == [];
  }

  lemma ProductionUrlHasNoBrace()
    ensures '{' !in ProductionUrl
  {
    assert ProductionUrl == "https://bilic-manus-" + "production.up.railway.app";
    assert '{' !in "https://bilic-manus-";
    assert '{' !in "production.up.railway.app";
  }

  /** A descriptor with one path parameter and an object body: the URL is
      the substitution of that one parameter. */
  lemma SingleParamTarget(e: Endpoint, name: string, values: map<string, Value>)
    requires e.pathParams == Some([name])
    ensures TargetUrl(e, Success(Obj(values))) == Success(SubstituteAll(ProductionUrl + e.path, Obj(values), [name]))
  {
  }

  lemma ThreadPrefixHasNoBrace()
    ensures '{' !in ProductionUrl + "/api/thread/"
  {
    ProductionUrlHasNoBrace();
    assert '{' !in "/api/thread/";
    NoCharInConcat('{', ProductionUrl, "/api/thread/");
  }

  lemma StartAgentUrlShape()
    ensures StartAgent.path == "/api/thread/" + Token("thread_id") + "/agent/start"
  {
  }

  lemma PrefixedPath(base: string, path: string, pre: string, mid: string, post: string)
    requires path == pre + mid + post
    ensures base + path == base + pre + mid + post
  {
  }

  /** The request URL of a descriptor whose one placeholder gets a
      non-empty value free of `$`. */
  lemma SingleParamRequest(e: Endpoint, pre: string, name: string, post: string, value: string)
    requires e.pathParams == Some([name]) && e.path == pre + Token(name) + post
    requires '{' !in ProductionUrl + pre && value != "" && '$' !in value
    ensures TargetUrl(e, Success(Obj(map[name := Str(value)]))) == Success(ProductionUrl + pre + value + post)
  {
    var values := map[name := Str(value)];
    SingleParamTarget(e, name, values);
    PrefixedPath(ProductionUrl, e.path, pre, Token(name), post);
    SingleParamUrl(pre, name, post, value, values);
  }

  /** Starting an agent on thread "abc123": the body `{"thread_id": "abc123"}`
      sends the request to /api/thread/abc123/agent/start. */
  lemma StartAgentExample()
    ensures TargetUrl(StartAgent, Success(Obj(map["thread_id" := Str("abc123")])))
      == Success(ProductionUrl + "/api/thread/" + "abc123" + "/agent/start")
  {
    StartAgentUrlShape();
    ThreadPrefixHasNoBrace();
    SingleParamRequest(StartAgent, "/api/thread/", "thread_id", "/agent/start", "abc123");
  }

  /** `requestBody || fallback`. */
  function OrElse(body: string, fallback: string): (r: string)
    requires fallback != ""
    ensures r != "" && (body != "" ==> r == body)
    ensures body == "" ==> r == fallback
  {
    if body != "" then body else fallback
  }

  /** The languages the snippet selector offers. */
  datatype Language = JavaScript | Python | Go | Curl

  function LanguageOf(language: string): (r: Option<Language>)
    ensures r == Some(JavaScript) <==> language == "javascript"
    ensures r == Some(Python) <==> language == "python"
    ensures r == Some(Go) <==> language == "go"
    ensures r == Some(Curl) <==> language == "curl"
  {
    if language == "javascript" then Some(JavaScript)
    else if language == "python" then Some(Python)
    else if language == "go" then Some(Go)
    else if language == "curl" then Some(Curl)
    else None
  }

  /** Each snippet is a template: an introduction, the URL, a head, a part
      that depends on whether the method is GET, and a tail. For a non-GET
      method that part is the body between two fixed texts. */
  const JsIntro := "// Using fetch API\nconst apiKey = \"YOUR_API_KEY\";\n\nfetch(\""
  const JsHeaders := "\",\n  headers: {\n    \"Authorization\": `Bearer ${apiKey}`,\n    \"Content-Type\": \"application/json\"\n  }"
  const JsBodyOpen := ",\n  body: JSON.stringify("
  const JsTail := "\n})\n  .then(response => response.json())\n  .then(data => console.log(data))\n  .catch(error => console.error(\"Error:\", error));"

  const PythonIntro := "# Using requests library\nimport requests\n\napi_key = \"YOUR_API_KEY\"\nurl = \""
  const PythonHead := "\"\n\nheaders = {\n    \"Authorization\": f\"Bearer {api_key}\",\n    \"Content-Type\": \"application/json\"\n}\n\n"
  const PythonTail := "\nprint(response.json())"

  const GoIntro := "// Using net/http package\npackage main\n\nimport (\n\t\"bytes\"\n\t\"encoding/json\"\n\t\"fmt\"\n\t\"io/ioutil\"\n\t\"net/http\"\n)\n\nfunc main() {\n\tapiKey := \"YOUR_API_KEY\"\n\turl := \""
  const GoHead := "\"\n\n\t"
  const GoEmptyPayload := "[]byte(\"{}\")"
  const GoTail := "\n\tif err != nil {\n\t\tpanic(err)\n\t}\n\n\treq.Header.Set(\"Authorization\", \"Bearer \" + apiKey)\n\treq.Header.Set(\"Content-Type\", \"application/json\")\n\n\tclient := &http.Client{}\n\tresp, err := client.Do(req)\n\tif err != nil {\n\t\tpanic(err)\n\t}\n\tdefer resp.Body.Close()\n\n\tbody, _ := ioutil.ReadAll(resp.Body)\n\tfmt.Println(string(body))\n}"

  const CurlHead := "\" \\\n  -H \"Authorization: Bearer YOUR_API_KEY\" \\\n  -H \"Content-Type: application/json\""

  /** `method.toLowerCase()` as the name of a `requests` function. */
  function PythonCall(m: Method): string {
    "requests." + LowerString(MethodName(m)) + "(url"
  }

  function SnippetIntro(l: Language, m: Method): string {
    match l
    case JavaScript => JsIntro
    case Python => PythonIntro
    case Go => GoIntro
    case Curl => "curl -X " + MethodName(m) + " \\\n  \""
  }

  function SnippetHead(l: Language, m: Method): string {
    match l
    case JavaScript => "\", {\n  method: \"" + MethodName(m) + JsHeaders
    case Python => PythonHead
    case Go => GoHead
    case Curl => CurlHead
  }

  /** What a snippet puts on either side of the body for a non-GET method. */
  function BodyOpen(l: Language, m: Method): string {
    match l
    case JavaScript => JsBodyOpen
    case Python => "payload = "
    case Go => "payload := "
    case Curl => " \\\n  -d '"
  }

  function BodyClose(l: Language, m: Method): string {
    match l
    case JavaScript => ")"
    case Python => "\n\nresponse = " + PythonCall(m) + ", json=payload, headers=headers)"
    case Go => " \n\treq, err := http.NewRequest(\"" + MethodName(m) + "\", url, bytes.NewBuffer(payload))"
    case Curl => "'"
  }

  /** What a snippet holds in place of the body for a GET. */
  function NoBody(l: Language, m: Method): string {
    match l
    case JavaScript => ""
    case Python => "response = " + PythonCall(m) + ", headers=headers)"
    case Go => "req, err := http.NewRequest(\"" + MethodName(m) + "\", url, nil)"
    case Curl => ""
  }

  function SnippetTail(l: Language): string {
    match l
    case JavaScript => JsTail
    case Python => PythonTail
    case Go => GoTail
    case Curl => ""
  }

  /** The body a non-GET snippet carries: the request body, or an empty
      object when it is empty. */
  function SnippetBody(l: Language, requestBody: string): string {
    OrElse(requestBody, if l == Go then GoEmptyPayload else "{}")
  }

  function MethodPart(l: Language, m: Method, requestBody: string): string {
    if m != GET then BodyOpen(l, m) + SnippetBody(l, requestBody) + BodyClose(l, m)
    else NoBody(l, m)
  }

  /** The five parts of a snippet, in order. */
  function Template(intro: string, url: string, head: string, part: string, tail: string): string {
    intro + url + head + part + tail
  }

  lemma TemplatePrefix(intro: string, url: string, head: string, part: string, tail: string)
    ensures StartsWith(Template(intro, url, head, part, tail), intro + url)
  {
    assert Template(intro, url, head, part, tail) == (intro + url) + (head + part + tail);
    StartsWithConcat(intro + url, head + part + tail);
  }

  lemma TemplateUrl(intro: string, url: string, head: string, part: string, tail: string)
    ensures Occurs(Template(intro, url, head, part, tail), url)
  {
    assert Template(intro, url, head, part, tail) == intro + url + (head + part + tail);
    OccursMiddle(intro, url, head + part + tail);
  }

  /** Whatever occurs in the introduction, the head or the method part
      occurs in the snippet. */
  lemma TemplateOccurs(intro: string, url: string, head: string, part: string, tail: string, t: string)
    requires Occurs(intro, t) || Occurs(head, t) || Occurs(part, t)
    ensures Occurs(Template(intro, url, head, part, tail), t)
  {
    if Occurs(intro, t) {
      assert Template(intro, url, head, part, tail) == "" + intro + (url + head + part + tail);
      OccursWithin("", intro, url + head + part + tail, t);
    } else if Occurs(head, t) {
      assert Template(intro, url, head, part, tail) == (intro + url) + head + (part + tail);
      OccursWithin(intro + url, head, part + tail, t);
    } else {
      OccursWithin(intro + url + head, part, tail, t);
    }
  }

  lemma TemplateStart(p: string, q: string, url: string, head: string, part: string, tail: string)
    ensures StartsWith(Template(p + q, url, head, part, tail), p)
  {
    var rest := q + url + head + part + tail;
    assert Template(p + q, url, head, part, tail) == p + rest;
    StartsWithConcat(p, rest);
  }

  /** `getCodeSnippet(language)` for descriptor `e` and the current request body. */
  function GetCodeSnippet(language: string, e: Endpoint, requestBody: string): (r: string)
    ensures LanguageOf(language).Some? ==>
      StartsWith(r, SnippetIntro(LanguageOf(language).value, e.verb) + ProductionUrl + e.path)
    ensures LanguageOf(language).None? ==> r == NoSnippet
  {
    match LanguageOf(language)
    case Some(l) =>
      TemplatePrefix(SnippetIntro(l, e.verb), ProductionUrl + e.path, SnippetHead(l, e.verb),
        MethodPart(l, e.verb, requestBody), SnippetTail(l));
      Template(SnippetIntro(l, e.verb), ProductionUrl + e.path, SnippetHead(l, e.verb),
        MethodPart(l, e.verb, requestBody), SnippetTail(l))
    case None => NoSnippet
  }

  /** Every snippet addresses the descriptor's production URL; any other
      language gets the fixed placeholder text. */
  lemma SnippetUrl(language: string, e: Endpoint, requestBody: string)
    ensures LanguageOf(language).Some? ==> Occurs(GetCodeSnippet(language, e, requestBody), ProductionUrl + e.path)
    ensures LanguageOf(language).None? ==> GetCodeSnippet(language, e, requestBody) == NoSnippet
  {
    if LanguageOf(language).Some? {
      var l := LanguageOf(language).value;
      var m := e.verb;
      TemplateUrl(SnippetIntro(l, m), ProductionUrl + e.path, SnippetHead(l, m),
        MethodPart(l, m, requestBody), SnippetTail(l));
    }
  }

  /** A GET snippet does not depend on the request body. */
  lemma GetSnippetIgnoresBody(language: string, e: Endpoint, body1: string, body2: string)
    requires e.verb == GET
    ensures GetCodeSnippet(language, e, body1) == GetCodeSnippet(language, e, body2)
  {
  }

  /** Every snippet of a non-GET descriptor carries the request body, or an
      empty object when the body is empty. */
  lemma SnippetCarriesBody(language: string, e: Endpoint, requestBody: string)
    requires LanguageOf(language).Some? && e.verb != GET
    ensures Occurs(GetCodeSnippet(language, e, requestBody), SnippetBody(LanguageOf(language).value, requestBody))
  {
    var l := LanguageOf(language).value;
    var m := e.verb;
    var b := SnippetBody(l, requestBody);
    OccursMiddle(BodyOpen(l, m), b, BodyClose(l, m));
    TemplateOccurs(SnippetIntro(l, m), ProductionUrl + e.path, SnippetHead(l, m),
      MethodPart(l, m, requestBody), SnippetTail(l), b);
  }

  /** The Python snippet calls the `requests` function named by the method in
      lower case. */
  lemma PythonSnippetCall(e: Endpoint, requestBody: string)
    ensures Occurs(GetCodeSnippet("python", e, requestBody), PythonCall(e.verb))
  {
    var m := e.verb;
    var call := PythonCall(m);
    var part := MethodPart(Python, m, requestBody);
    if m != GET {
      var before := "payload = " + SnippetBody(Python, requestBody) + "\n\nresponse = ";
      var after := ", json=payload, headers=headers)";
      assert part == before + call + after;
      OccursMiddle(before, call, after);
    } else {
      OccursMiddle("response = ", call, ", headers=headers)");
    }
    TemplateOccurs(PythonIntro, ProductionUrl + e.path, PythonHead, part, PythonTail, call);
  }

  /** The JavaScript, Go and curl snippets name the method as it is written
      (the Python one names it in lower case, see `PythonSnippetCall`). */
  lemma SnippetMethod(language: string, e: Endpoint, requestBody: string)
    requires LanguageOf(language).Some? && LanguageOf(language) != Some(Python)
    ensures Occurs(GetCodeSnippet(language, e, requestBody), MethodName(e.verb))
  {
    var l := LanguageOf(language).value;
    var m := e.verb;
    var name := MethodName(m);
    var part := MethodPart(l, m, requestBody);
    if l == JavaScript {
      OccursMiddle("\", {\n  method: \"", name, JsHeaders);
    } else if l == Go && m != GET {
      OccursMiddle(" \n\treq, err := http.NewRequest(\"", name, "\", url, bytes.NewBuffer(payload))");
      assert part == BodyOpen(l, m) + SnippetBody(l, requestBody) + BodyClose(l, m) + "";
      OccursWithin(BodyOpen(l, m) + SnippetBody(l, requestBody), BodyClose(l, m), "", name);
    } else if l == Go {
      OccursMiddle("req, err := http.NewRequest(\"", name, "\", url, nil)");
    } else {
      OccursMiddle("curl -X ", name, " \\\n  \"");
    }
    TemplateOccurs(SnippetIntro(l, m), ProductionUrl + e.path, SnippetHead(l, m), part, SnippetTail(l), name);
  }

  /** `"POST".toLowerCase()` is "post", so a POST snippet calls `requests.post`. */
  lemma PythonPost()
    ensures PythonCall(POST) == "requests.post(url"
  {
    assert LowerString("POST") == "post";
  }

  /** The curl snippet opens with the method. */
  lemma CurlSnippetMethod(e: Endpoint, requestBody: string)
    ensures StartsWith(GetCodeSnippet("curl", e, requestBody), "curl -X " + MethodName(e.verb))
  {
    TemplateStart("curl -X " + MethodName(e.verb), " \\\n  \"", ProductionUrl + e.path, CurlHead,
      MethodPart(Curl, e.verb, requestBody), "");
  }

  /** The state of the documentation page. `catalog` is the descriptor list it
      imports; the first descriptor is selected initially. */
  class Explorer {
    const catalog: seq<Endpoint>
    var selected: Endpoint
    var apiKey: string
    var requestBody: string
    var response: Value
    var loading: bool
    var language: string

    constructor (catalog: seq<Endpoint>)
      requires |catalog| > 0
      ensures this.catalog == catalog && selected == catalog[0]
      ensures apiKey == "" && requestBody == "" && response == Null && !loading && language == "javascript"
    {
      this.catalog := catalog;
      selected := catalog[0];
      apiKey := "";
      requestBody := "";
      response := Null;
      loading := false;
      language := "javascript";
    }

    /** `handleEndpointChange`: selecting a path of the catalog selects the
        first descriptor with that path, loads its default body (or "") and
        clears the response; an unknown path changes nothing. */
    method HandleEndpointChange(value: string)
      modifies this
      ensures FindByPath(catalog, value).Some? ==>
        selected == FindByPath(catalog, value).value && selected.path == value
        && requestBody == selected.defaultBody.GetOr("") && response == Null
      ensures FindByPath(catalog, value).None? ==>
        selected == old(selected) && requestBody == old(requestBody) && response == old(response)
      ensures apiKey == old(apiKey) && loading == old(loading) && language == old(language)
    {
      var endpoint := FindByPath(catalog, value);
      if endpoint.Some? {
        FindByPathFound(catalog, value);
        selected := endpoint.value;
        requestBody := if endpoint.value.defaultBody.Some? then endpoint.value.defaultBody.value else "";
        response := Null;
      }
    }

    /** `handleCopyCode`: the snippet goes to the clipboard and a toast
        confirms it. */
    method HandleCopyCode(code: string) returns (clipboard: string, toast: Toast)
      ensures clipboard == code
      ensures toast == Toast("Copied!", "Code snippet copied to clipboard", false)
    {
      clipboard := code;
      toast := Toast("Copied!", "Code snippet copied to clipboard", false);
    }

    /** `handleTestEndpoint`. `parsed` is what `JSON.parse(requestBody)` makes
        of the body, `reply` what `fetch` and `res.json()` settle to. Without
        an API key nothing is sent; otherwise the request carries the key as
        a bearer token, the body only for a non-GET method with a non-empty
        body, and a successful reply replaces the response. */
    method HandleTestEndpoint(parsed: Result<Value, string>, reply: Result<Value, string>)
      returns (sent: Option<Request>, toast: Option<Toast>)
      modifies this
      ensures apiKey == old(apiKey) && requestBody == old(requestBody) && selected == old(selected)
      ensures language == old(language)
      ensures old(apiKey) == "" ==>
        sent.None? && toast == Some(Toast("API Key Required", "Please enter your API key to test this endpoint", true))
        && response == old(response) && loading == old(loading)
      ensures old(apiKey) != "" ==> !loading
      ensures old(apiKey) != "" && TargetUrl(selected, parsed).Failure? ==>
        sent.None? && toast == Some(RequestFailed) && response == old(response)
      ensures old(apiKey) != "" && TargetUrl(selected, parsed).Success? ==>
        sent == Some(TestRequest(selected, TargetUrl(selected, parsed).value, apiKey, requestBody))
        && (reply.Success? ==> toast.None? && response == reply.value)
        && (reply.Failure? ==> toast == Some(RequestFailed) && response == old(response))
    {
      if apiKey == "" {
        return None, Some(Toast("API Key Required", "Please enter your API key to test this endpoint", true));
      }
      loading := true;
      var url := BuildUrl(selected, parsed);
      if url.Failure? {
        sent, toast := None, Some(RequestFailed);
      } else {
        var body := if selected.verb != GET && requestBody != "" then Some(Text(requestBody)) else None;
        sent := Some(Request(selected.verb, url.value,
          map["Authorization" := "Bearer " + apiKey, "Content-Type" := "application/json"], body));
        if reply.Failure? {
          toast := Some(RequestFailed);
        } else {
          response := reply.value;
          toast := None;
        }
      }
      loading := false;
    }
  }

  const RequestFailed := Toast("Request Failed", "Failed to execute the API request. Check console for details.", true)

  /** The request a test sends to `url` for descriptor `e`. */
  function TestRequest(e: Endpoint, url: string, apiKey: string, requestBody: string): (r: Request)
    ensures r.verb == e.verb && r.url == url
    ensures r.headers.Keys == {"Authorization", "Content-Type"}
    ensures r.headers["Authorization"] == "Bearer " + apiKey
    ensures r.headers["Content-Type"] == "application/json"
    ensures r.body.Some? <==> e.verb != GET && requestBody != ""
    ensures r.body.Some? ==> r.body.value == Text(requestBody)
  {
    Request(e.verb, url,
      map["Authorization" := "Bearer " + apiKey, "Content-Type" := "application/json"],
      if e.verb != GET && requestBody != "" then Some(Text(requestBody)) else None)
  }

  lemma FindByPathFound(c: seq<Endpoint>, path: string)
    ensures FindByPath(c, path).Some? ==> FindByPath(c, path).value.path == path
  {
  }

  /** No catalog descriptor has a default body, so selecting any of them
      empties the request body. */
  lemma CatalogSelectionClearsBody(path: string)
    requires FindByPath(UpdatedEndpoints, path).Some?
    ensures FindByPath(UpdatedEndpoints, path).value.defaultBody.GetOr("") == ""
  {
    var i := FindIndex(UpdatedEndpoints, path).value;
    assert UpdatedEndpoints[i].defaultBody.None?;
  }
}

=== FILE: api_key_stats.dfy ===
/** The key statistics cards of components/api-key-stats.tsx. */
module ApiKeyStats {
  import opened Wrappers
  import opened Types

  /** The "Last Used" card: "Never", the date of the most recent use, or
      "Invalid Date" when a last-use text does not parse. */
  datatype LastUsed = Never | InvalidDate | At(time: int)

  datatype Stats = Stats(totalKeys: nat, activeKeys: nat, lastUsed: LastUsed)

  const InitialStats := Stats(0, 0, Never)

  /** `key.last_used` is truthy. */
  predicate WasUsed(k: ApiKey) {
    k.lastUsed.Some? && k.lastUsed.value != ""
  }

  /** `apiKeys.filter((key) => key.last_used)`, as last-use texts. */
  function UsedDates(keys: seq<ApiKey>): (r: seq<string>)
    ensures forall d :: d in r <==> exists k :: k in keys && WasUsed(k) && k.lastUsed.value == d
    ensures |r| == 0 <==> forall k :: k in keys ==> !WasUsed(k)
  {
    if |keys| == 0 then []
    else
      var rest := UsedDates(keys[1..]);
      assert forall k :: k in keys <==> k == keys[0] || k in keys[1..];
      if WasUsed(keys[0]) then [keys[0].lastUsed.value] + rest else rest
  }

  /** `Math.max` of the parsed dates, where `timeOf` is what `new Date(...)`
      makes of a text (`None` for an invalid date, whose time is NaN and makes
      the maximum NaN). */
  function MaxTime(dates: seq<string>, timeOf: string -> Option<int>): (r: Option<int>)
    requires |dates| > 0
    ensures r.Some? <==> forall d :: d in dates ==> timeOf(d).Some?
    ensures r.Some? ==> exists d :: d in dates && timeOf(d) == r
    ensures r.Some? ==> forall d :: d in dates ==> timeOf(d).value <= r.value
  {
    if |dates| == 1 then
      assert forall d :: d in dates ==> d == dates[0];
      timeOf(dates[0])
    else
      var rest := MaxTime(dates[1..], timeOf);
      assert forall d :: d in dates <==> d == dates[0] || d in dates[1..];
      match timeOf(dates[0])
      case None => None
      case Some(t) =>
        if rest.None? then None
        else if t >= rest.value then Some(t) else rest
  }

  /** What the cards show for a list of keys: both counts are the list's
      length, and the last use is the latest of the keys' last uses. */
  function ComputeStats(keys: seq<ApiKey>, timeOf: string -> Option<int>): (r: Stats)
    ensures r.totalKeys == |keys| && r.activeKeys == |keys|
    ensures r.lastUsed == Never <==> forall k :: k in keys ==> !WasUsed(k)
    ensures r.lastUsed == InvalidDate <==>
      exists k :: k in keys && WasUsed(k) && timeOf(k.lastUsed.value).None?
    ensures r.lastUsed.At? ==>
      (exists k :: k in keys && WasUsed(k) && timeOf(k.lastUsed.value) == Some(r.lastUsed.time))
      && (forall k :: k in keys && WasUsed(k) ==>
            timeOf(k.lastUsed.value).Some? && timeOf(k.lastUsed.value).value <= r.lastUsed.time)
  {
    var dates := UsedDates(keys);
    var lastUsed :=
      if |keys| > 0 && |dates| > 0 then
        match MaxTime(dates, timeOf)
        case Some(t) => At(t)
        case None => InvalidDate
      else Never;
    Stats(|keys|, |keys|, lastUsed)
  }

  /** Three keys, one never used: the later of the used ones is reported. */
  lemma StatsExample(a: ApiKey, b: ApiKey, c: ApiKey, timeOf: string -> Option<int>)
    requires a.lastUsed == Some("2024-01-01") && b.lastUsed == None && c.lastUsed == Some("2024-03-01")
    requires timeOf("2024-01-01") == Some(1704067200000) && timeOf("2024-03-01") == Some(1709251200000)
    ensures ComputeStats([a, b, c], timeOf) == Stats(3, 3, At(1709251200000))
  {
    var keys := [a, b, c];
    assert WasUsed(a) && !WasUsed(b) && WasUsed(c);
    var r := ComputeStats(keys, timeOf);
    assert forall k :: k in keys && WasUsed(k) ==> k == a || k == c;
    assert r.lastUsed.At?;
    var k :| k in keys && WasUsed(k) && timeOf(k.lastUsed.value) == Some(r.lastUsed.time);
    assert k == a || k == c;
    assert timeOf(c.lastUsed.value).value <= r.lastUsed.time;
  }

  /** The cards' state; it starts at zero keys, never used. */
  class KeyStats {
    var stats: Stats

    constructor ()
      ensures stats == InitialStats
    {
      stats := InitialStats;
    }

    /** `getStats`. `fetched` is what `fetchApiKeys` settles to, decoded:
        `None` for a falsy body. Only a list replaces the statistics; a
        failure is logged and changes nothing. */
    method GetStats(fetched: Result<Option<seq<ApiKey>>, string>, timeOf: string -> Option<int>)
      modifies this
      ensures fetched.Success? && fetched.value.Some? ==> stats == ComputeStats(fetched.value.value, timeOf)
      ensures !(fetched.Success? && fetched.value.Some?) ==> stats == old(stats)
    {
      if fetched.Success? && fetched.value.Some? {
        stats := ComputeStats(fetched.value.value, timeOf);
      }
    }
  }
}

=== FILE: api_keys_list.dfy ===
/** The key table of components/api-keys-list.tsx with its regenerate and
    delete confirmations. */
module ApiKeysList {
  import opened Wrappers
  import opened Js
  import opened Types
  import opened Http
  import opened Ui
  import Api
  import ApiKeyStats

  const LoadFailed := Toast("Error", "Failed to load API keys. Please try again.", true)
  const Regenerated := Toast("Success", "API key regenerated successfully", false)
  const RegenerateFailed := Toast("Error", "Failed to regenerate API key", true)
  const Deleted := Toast("Success", "API key deleted successfully", false)
  const DeleteFailed := Toast("Error", "Failed to delete API key", true)
  const KeyCopied := Toast("Copied!", "API key copied to clipboard", false)

  /** The description cell: the description, or "No description" when it is
      missing or empty. */
  function DescriptionCell(k: ApiKey): (r: string)
    ensures r != ""
    ensures k.description.Some? && k.description.value != "" ==> r == k.description.value
    ensures k.description.None? || k.description.value == "" ==> r == "No description"
  {
    if k.description.Some? && k.description.value != "" then k.description.value else "No description"
  }

  /** The last-used cell: the date text to format, or `None` for "Never". */
  function LastUsedCell(k: ApiKey): (r: Option<string>)
    ensures r.None? <==> !ApiKeyStats.WasUsed(k)
    ensures r.Some? ==> r == k.lastUsed
  {
    if k.lastUsed.Some? && k.lastUsed.value != "" then k.lastUsed else None
  }

  /** The table shows "Never" on every row exactly when the statistics card
      shows "Never". */
  lemma NeverAgreesWithStats(keys: seq<ApiKey>, timeOf: string -> Option<int>)
    ensures (forall k :: k in keys ==> LastUsedCell(k).None?)
      <==> ApiKeyStats.ComputeStats(keys, timeOf).lastUsed == ApiKeyStats.Never
  {
  }

  /** The keys after a load: a list replaces them, anything else keeps them. */
  function AfterLoad(keys: seq<ApiKey>, fetched: Result<Option<seq<ApiKey>>, string>): seq<ApiKey> {
    if fetched.Success? && fetched.value.Some? then fetched.value.value else keys
  }

  /** The toasts a load shows: one when it fails. */
  function LoadToasts(fetched: Result<Option<seq<ApiKey>>, string>): seq<Toast> {
    if fetched.Failure? then [LoadFailed] else []
  }

  class KeyList {
    var apiKeys: seq<ApiKey>
    var loading: bool
    var regeneratedKey: Value
    var deleteKeyId: Option<string>
    var showRegenerateDialog: bool
    var showDeleteDialog: bool
    var keyToRegenerate: Option<string>

    constructor ()
      ensures apiKeys == [] && loading && regeneratedKey == Null
      ensures deleteKeyId.None? && !showRegenerateDialog && !showDeleteDialog && keyToRegenerate.None?
    {
      apiKeys := [];
      loading := true;
      regeneratedKey := Null;
      deleteKeyId := None;
      showRegenerateDialog := false;
      showDeleteDialog := false;
      keyToRegenerate := None;
    }

    /** `{regeneratedKey && (...)}`: the regenerated key is shown while it is truthy. */
    predicate ShowsRegeneratedKey()
      reads this
    {
      Truthy(regeneratedKey)
    }

    /** `loadApiKeys`. `fetched` is what `fetchApiKeys` settles to, decoded:
        `None` for a falsy body. */
    method LoadApiKeys(fetched: Result<Option<seq<ApiKey>>, string>) returns (toasts: seq<Toast>)
      modifies this
      ensures apiKeys == AfterLoad(old(apiKeys), fetched) && !loading
      ensures toasts == LoadToasts(fetched)
      ensures regeneratedKey == old(regeneratedKey) && deleteKeyId == old(deleteKeyId)
      ensures keyToRegenerate == old(keyToRegenerate)
      ensures showRegenerateDialog == old(showRegenerateDialog) && showDeleteDialog == old(showDeleteDialog)
    {
      loading := true;
      toasts := [];
      if fetched.Success? {
        if fetched.value.Some? {
          apiKeys := fetched.value.value;
        }
      } else {
        toasts := [LoadFailed];
      }
      loading := false;
    }

    /** `handleCopyKey`: the key goes to the clipboard and a toast confirms it. */
    method HandleCopyKey(apiKey: string) returns (clipboard: string, toast: Toast)
      ensures clipboard == apiKey && toast == KeyCopied
    {
      clipboard, toast := apiKey, KeyCopied;
    }

    /** `handleRegenerateClick`: remember the key and open the confirmation. */
    method HandleRegenerateClick(keyId: string)
      modifies this
      ensures keyToRegenerate == Some(keyId) && showRegenerateDialog
      ensures apiKeys == old(apiKeys) && regeneratedKey == old(regeneratedKey) && deleteKeyId == old(deleteKeyId)
      ensures showDeleteDialog == old(showDeleteDialog) && loading == old(loading)
    {
      keyToRegenerate := Some(keyId);
      showRegenerateDialog := true;
    }

    /** `handleDeleteClick`: remember the key and open the confirmation. */
    method HandleDeleteClick(keyId: string)
      modifies this
      ensures deleteKeyId == Some(keyId) && showDeleteDialog
      ensures apiKeys == old(apiKeys) && regeneratedKey == old(regeneratedKey) && keyToRegenerate == old(keyToRegenerate)
      ensures showRegenerateDialog == old(showRegenerateDialog) && loading == old(loading)
    {
      deleteKeyId := Some(keyId);
      showDeleteDialog := true;
    }

    /** `confirmRegenerate`. Without a (non-empty) remembered key nothing
        happens. Otherwise the key is regenerated; on success the new key is
        shown, the list reloaded (`reload` is what that fetch settles to) and
        a toast confirms; any failure shows an error toast instead. Either
        way the dialog closes and the remembered key is cleared. */
    method ConfirmRegenerate(session: Api.Session, response: HttpResponse,
                             reload: Result<Option<seq<ApiKey>>, string>)
      returns (sent: Option<Request>, toasts: seq<Toast>)
      modifies this
      ensures old(keyToRegenerate).None? || old(keyToRegenerate) == Some("") ==>
        sent.None? && toasts == [] && apiKeys == old(apiKeys) && regeneratedKey == old(regeneratedKey)
        && keyToRegenerate == old(keyToRegenerate) && showRegenerateDialog == old(showRegenerateDialog)
        && loading == old(loading)
      ensures old(keyToRegenerate).Some? && old(keyToRegenerate) != Some("") ==>
        !showRegenerateDialog && keyToRegenerate.None?
        && (session.IsAuthenticated() ==>
              sent == Some(Request(POST, Api.BaseUrl + "/api-keys/" + old(keyToRegenerate).value + "/regenerate",
                map["Authorization" := session.Bearer()], None)))
        && (!session.IsAuthenticated() ==> sent.None?)
      ensures old(keyToRegenerate).Some? && old(keyToRegenerate) != Some("") ==>
        var outcome := if session.IsAuthenticated() then Api.HandleResponse(response) else Failure(Api.AuthRequired);
        if outcome.Success? && Read(outcome.value, "api_key").Success? then
          regeneratedKey == Get(outcome.value, "api_key") && apiKeys == AfterLoad(old(apiKeys), reload)
          && toasts == LoadToasts(reload) + [Regenerated] && !loading
        else
          regeneratedKey == old(regeneratedKey) && apiKeys == old(apiKeys) && toasts == [RegenerateFailed]
          && loading == old(loading)
      ensures deleteKeyId == old(deleteKeyId) && showDeleteDialog == old(showDeleteDialog)
    {
      if keyToRegenerate.None? || keyToRegenerate == Some("") {
        return None, [];
      }
      var r;
      sent, r := session.RegenerateApiKey(keyToRegenerate.value, response);
      var key := if r.Success? then Read(r.value, "api_key") else Failure("");
      if r.Success? && key.Success? {
        regeneratedKey := key.value;
        var loadToasts := LoadApiKeys(reload);
        toasts := loadToasts + [Regenerated];
      } else {
        toasts := [RegenerateFailed];
      }
      showRegenerateDialog := false;
      keyToRegenerate := None;
    }

    /** `confirmDelete`. Without a (non-empty) remembered key nothing
        happens. Otherwise the key is deleted; on success the list is
        reloaded and a toast confirms, on failure an error toast shows.
        Either way the dialog closes and the remembered key is cleared. */
    method ConfirmDelete(session: Api.Session, response: HttpResponse,
                         reload: Result<Option<seq<ApiKey>>, string>)
      returns (sent: Option<Request>, toasts: seq<Toast>)
      modifies this
      ensures old(deleteKeyId).None? || old(deleteKeyId) == Some("") ==>
        sent.None? && toasts == [] && apiKeys == old(apiKeys)
        && deleteKeyId == old(deleteKeyId) && showDeleteDialog == old(showDeleteDialog)
        && loading == old(loading)
      ensures old(deleteKeyId).Some? && old(deleteKeyId) != Some("") ==>
        !showDeleteDialog && deleteKeyId.None?
        && (session.IsAuthenticated() ==>
              sent == Some(Request(DELETE, Api.BaseUrl + "/api-keys/" + old(deleteKeyId).value,
                map["Authorization" := session.Bearer()], None)))
        && (!session.IsAuthenticated() ==> sent.None?)
        && (session.IsAuthenticated() && response.ok ==>
              apiKeys == AfterLoad(old(apiKeys), reload) && toasts == LoadToasts(reload) + [Deleted] && !loading)
        && (!(session.IsAuthenticated() && response.ok) ==>
              apiKeys == old(apiKeys) && toasts == [DeleteFailed] && loading == old(loading))
      ensures regeneratedKey == old(regeneratedKey)
      ensures keyToRegenerate == old(keyToRegenerate) && showRegenerateDialog == old(showRegenerateDialog)
    {
      if deleteKeyId.None? || deleteKeyId == Some("") {
        return None, [];
      }
      var r;
      sent, r := session.DeleteApiKey(deleteKeyId.value, response);
      if r.Pass? {
        var loadToasts := LoadApiKeys(reload);
        toasts := loadToasts + [Deleted];
      } else {
        toasts := [DeleteFailed];
      }
      showDeleteDialog := false;
      deleteKeyId := None;
    }
  }
}

=== FILE: api_tester.dfy ===
/** The generic request tester of components/api-tester.tsx: placeholder
    substitution in the endpoint template, headers from the typed-in values,
    and the response or error it keeps. */
module ApiTester {
  import opened Wrappers
  import opened Js
  import opened Types
  import opened Http

  /** The characters `.` does not match in a JavaScript regular expression. */
  predicate LineTerminator(c: char) {
    c == '\n' || c == '\r' || c == '\U{2028}' || c == '\U{2029}'
  }

  /** No `}` and no line terminator in `s[i..j]`. */
  predicate Clear(s: string, i: nat, j: nat)
    requires j <= |s|
  {
    forall n :: i <= n < j ==> s[n] != '}' && !LineTerminator(s[n])
  }

  /** Where the lazy group of `/\{(.*?)\}/` ends when the `{` sits just before
      index `i`: the first `}` from `i` on, provided no line terminator comes
      before it. */
  function CloseFrom(s: string, i: nat): (r: Option<nat>)
    ensures r.Some? ==> i <= r.value < |s| && s[r.value] == '}' && Clear(s, i, r.value)
    ensures r.None? ==> forall k :: i <= k < |s| && s[k] == '}' ==> !Clear(s, i, k)
    decreases |s| - i
  {
    if i >= |s| then None
    else if s[i] == '}' then Some(i)
    else if LineTerminator(s[i]) then None
    else CloseFrom(s, i + 1)
  }

  /** The replacement the callback returns for a placeholder: the typed-in
      value when it is non-empty, the placeholder itself otherwise. */
  function Lookup(values: map<string, string>, key: string): string {
    if key in values && values[key] != "" then values[key] else "{" + key + "}"
  }

  /** Every character of `r` comes from the template `s` or from a typed-in value. */
  predicate FromTemplateOrValues(r: string, s: string, values: map<string, string>) {
    forall ch :: ch in r ==> ch in s || exists k :: k in values && ch in values[k]
  }

  /** `endpoint.replace(/\{(.*?)\}/g, callback)`: the text is scanned left to
      right, each match is replaced, and the scan resumes after the match, so
      inserted text is never scanned again. */
  function Substitute(s: string, values: map<string, string>): (r: string)
    ensures FromTemplateOrValues(r, s, values)
    decreases |s|
  {
    if |s| == 0 then ""
    else if s[0] == '{' && CloseFrom(s, 1).Some? then
      var j := CloseFrom(s, 1).value;
      Lookup(values, s[1..j]) + Substitute(s[j + 1..], values)
    else [s[0]] + Substitute(s[1..], values)
  }

  /** No `}` in `s[i..n]`, followed by a line terminator or the end, means no
      group opened at `i - 1` can close. */
  lemma CloseFromNone(s: string, i: nat, n: nat)
    requires i <= n <= |s| && Clear(s, i, n)
    requires n == |s| || LineTerminator(s[n])
    ensures CloseFrom(s, i).None?
  {
  }

  /** A `{` whose line holds no `}` is not a placeholder: the stretch up to the
      line terminator (or the end) is kept as it is, each `{` in it included,
      and the scan goes on after it. */
  lemma {:induction false} UnclosedStretchKept(s: string, n: nat, values: map<string, string>)
    requires n <= |s| && Clear(s, 0, n)
    requires n == |s| || LineTerminator(s[n])
    ensures Substitute(s, values) == s[..n] + Substitute(s[n..], values)
    decreases n
  {
    if n > 0 {
      if s[0] == '{' {
        CloseFromNone(s, 1, n);
      }
      assert Substitute(s, values) == [s[0]] + Substitute(s[1..], values);
      var t := s[1..];
      assert Clear(t, 0, n - 1) by {
        forall k | 0 <= k < n - 1 ensures t[k] != '}' && !LineTerminator(t[k]) {
          assert t[k] == s[k + 1];
        }
      }
      UnclosedStretchKept(t, n - 1, values);
      assert t[n - 1..] == s[n..];
      assert [s[0]] + t[..n - 1] == s[..n];
    }
  }

  /** A template without `{` is left as it is. */
  lemma {:induction false} NoPlaceholderUnchanged(s: string, values: map<string, string>)
    requires '{' !in s
    ensures Substitute(s, values) == s
    decreases |s|
  {
    if |s| > 0 {
      assert s[0] != '{' && '{' !in s[1..];
      NoPlaceholderUnchanged(s[1..], values);
      assert [s[0]] + s[1..] == s;
    }
  }

  /** When no placeholder has a non-empty value, every placeholder is kept
      verbatim and the template comes back unchanged. */
  lemma {:induction false} NoValuesUnchanged(s: string, values: map<string, string>)
    requires forall k :: k in values ==> values[k] == ""
    ensures Substitute(s, values) == s
    decreases |s|
  {
    if |s| > 0 {
      var close := CloseFrom(s, 1);
      if s[0] == '{' && close.Some? {
        var j := close.value;
        NoValuesUnchanged(s[j + 1..], values);
        KeptLookup(values, s[1..j]);
        KeptPlaceholder(s, j, values);
      } else {
        NoValuesUnchanged(s[1..], values);
        KeptCharacter(s, values);
      }
    }
  }

  lemma KeptPlaceholder(s: string, j: nat, values: map<string, string>)
    requires |s| > 0 && s[0] == '{' && CloseFrom(s, 1) == Some(j)
    requires Lookup(values, s[1..j]) == "{" + s[1..j] + "}"
    requires Substitute(s[j + 1..], values) == s[j + 1..]
    ensures Substitute(s, values) == s
  {
    PlaceholderStep(s, j, values);
    BracedSlice(s, j);
    assert s == s[..j + 1] + s[j + 1..];
  }

  lemma KeptLookup(values: map<string, string>, key: string)
    requires forall k :: k in values ==> values[k] == ""
    ensures Lookup(values, key) == "{" + key + "}"
  {
  }

  /** One step of the scan over a template that opens with a placeholder. */
  lemma PlaceholderStep(s: string, j: nat, values: map<string, string>)
    requires |s| > 0 && s[0] == '{' && CloseFrom(s, 1) == Some(j)
    ensures Substitute(s, values) == Lookup(values, s[1..j]) + Substitute(s[j + 1..], values)
  {
  }

  lemma KeptCharacter(s: string, values: map<string, string>)
    requires |s| > 0 && !(s[0] == '{' && CloseFrom(s, 1).Some?)
    requires Substitute(s[1..], values) == s[1..]
    ensures Substitute(s, values) == s
  {
    assert [s[0]] + s[1..] == s;
  }

  /** The first `}` after a clear stretch closes the group. */
  lemma {:induction false} CloseFromAt(s: string, i: nat, j: nat)
    requires i <= j < |s| && s[j] == '}' && Clear(s, i, j)
    ensures CloseFrom(s, i) == Some(j)
    decreases j - i
  {
    if i < j {
      assert s[i] != '}' && !LineTerminator(s[i]);
      CloseFromAt(s, i + 1, j);
    }
  }

  lemma BracedSlice(s: string, j: nat)
    requires 1 <= j < |s| && s[0] == '{' && s[j] == '}'
    ensures "{" + s[1..j] + "}" == s[..j + 1]
  {
  }

  /** A placeholder after plain text is replaced by its value, which is not
      scanned again: the rest of the template is substituted on its own. */
  lemma PlaceholderReplaced(pre: string, key: string, post: string, values: map<string, string>)
    requires '{' !in pre
    requires '}' !in key && forall k :: 0 <= k < |key| ==> !LineTerminator(key[k])
    ensures Substitute(pre + "{" + key + "}" + post, values) == pre + Lookup(values, key) + Substitute(post, values)
  {
    var t := "{" + key + "}" + post;
    assert pre + "{" + key + "}" + post == pre + t;
    SubstituteAfterPlain(pre, t, values);
    LeadingPlaceholder(key, post, values);
  }

  /** A template that opens with a placeholder. */
  lemma LeadingPlaceholder(key: string, post: string, values: map<string, string>)
    requires '}' !in key && forall k :: 0 <= k < |key| ==> !LineTerminator(key[k])
    ensures Substitute("{" + key + "}" + post, values) == Lookup(values, key) + Substitute(post, values)
  {
    var t := "{" + key + "}" + post;
    var j := |key| + 1;
    assert t[0] == '{' && t[j] == '}';
    assert Clear(t, 1, j) by {
      forall n | 1 <= n < j ensures t[n] != '}' && !LineTerminator(t[n]) {
        assert t[n] == key[n - 1];
      }
    }
    CloseFromAt(t, 1, j);
    assert t[1..j] == key;
    assert t[j + 1..] == post;
  }

  /** Plain text before the rest of a template passes through. */
  lemma {:induction false} SubstituteAfterPlain(pre: string, rest: string, values: map<string, string>)
    requires '{' !in pre
    ensures Substitute(pre + rest, values) == pre + Substitute(rest, values)
    decreases |pre|
  {
    if |pre| > 0 {
      var s := pre + rest;
      assert s[0] == pre[0] && s[1..] == pre[1..] + rest;
      assert '{' !in pre[1..];
      SubstituteAfterPlain(pre[1..], rest, values);
      assert [pre[0]] + pre[1..] == pre;
    } else {
      assert pre + rest == rest;
    }
  }

  /** `/users/{id}` with id "42" becomes `/users/42`; with no id it stays
      `/users/{id}`. */
  lemma UserExample()
    ensures Substitute("/users/{id}", map["id" := "42"]) == "/users/42"
    ensures Substitute("/users/{id}", map[]) == "/users/{id}"
  {
    PlaceholderReplaced("/users/", "id", "", map["id" := "42"]);
    assert "/users/" + "{" + "id" + "}" + "" == "/users/{id}";
    assert Substitute("", map["id" := "42"]) == "";
    assert "/users/" + "42" + "" == "/users/42";
    NoValuesUnchanged("/users/{id}", map[]);
  }

  /** The value of a header: the typed-in value, or "" when there is none. */
  function HeaderValue(values: map<string, string>, header: string): string {
    if header in values && values[header] != "" then values[header] else ""
  }

  /** `headers.reduce(...)`: one entry per header name, holding its typed-in
      value or "". */
  method BuildHeaders(headers: seq<string>, values: map<string, string>) returns (r: map<string, string>)
    ensures r.Keys == set h | h in headers
    ensures forall h :: h in r ==> r[h] == HeaderValue(values, h)
  {
    r := map[];
    var i := 0;
    while i < |headers|
      invariant 0 <= i <= |headers|
      invariant r.Keys == set h | h in headers[..i]
      invariant forall h :: h in r ==> r[h] == HeaderValue(values, h)
    {
      var header := headers[i];
      r := r[header := if header in values && values[header] != "" then values[header] else ""];
      assert headers[..i + 1] == headers[..i] + [header];
      i := i + 1;
    }
    assert headers[..i] == headers;
  }

  /** What `axios` rejects with: an Axios error, carrying the server's reply
      body when there was a reply, or any other thrown value. */
  datatype Thrown = AxiosError(reply: Option<Value>, message: string) | OtherError

  const UnknownError := "An unknown error occurred."

  /** The value `setError` receives for a rejection. */
  function ErrorFor(t: Thrown): (r: Value)
    ensures t.AxiosError? && t.reply.Some? ==> r == t.reply.value
    ensures t.AxiosError? && t.reply.None? ==> r == Str(t.message)
    ensures t.OtherError? ==> r == Str(UnknownError)
  {
    match t
    case AxiosError(reply, message) => if reply.Some? then reply.value else Str(message)
    case OtherError => Str(UnknownError)
  }

  /** The tester for one endpoint template, method and list of header names. */
  class Tester {
    const endpoint: string
    const verb: Method
    const headers: seq<string>
    var response: Value
    var error: Value
    var inputValues: map<string, string>

    constructor (endpoint: string, verb: Method, headers: seq<string>)
      ensures this.endpoint == endpoint && this.verb == verb && this.headers == headers
      ensures response == Null && error == Null && inputValues == map[]
    {
      this.endpoint := endpoint;
      this.verb := verb;
      this.headers := headers;
      response := Null;
      error := Null;
      inputValues := map[];
    }

    /** `handleInputChange`: the field named `name` now holds `value`. */
    method HandleInputChange(name: string, value: string)
      modifies this
      ensures inputValues == old(inputValues)[name := value]
      ensures response == old(response) && error == old(error)
    {
      inputValues := inputValues[name := value];
    }

    /** `handleTestApi`. `outcome` is what `axios` settles to. The request
        goes to the substituted template with one header per name, and
        carries the typed-in values as its JSON body unless the method is
        GET. The error is cleared first; a success sets the response, a
        failure sets the error and keeps the previous response. */
    method HandleTestApi(outcome: Result<Value, Thrown>) returns (sent: Request)
      modifies this
      ensures sent.verb == verb && sent.url == Substitute(endpoint, inputValues)
      ensures sent.headers.Keys == set h | h in headers
      ensures forall h :: h in sent.headers ==> sent.headers[h] == HeaderValue(inputValues, h)
      ensures sent.body == if verb != GET then Some(Json(StringObject(inputValues))) else None
      ensures inputValues == old(inputValues)
      ensures outcome.Success? ==> response == outcome.value && error == Null
      ensures outcome.Failure? ==> response == old(response) && error == ErrorFor(outcome.error)
    {
      error := Null;
      var url := Substitute(endpoint, inputValues);
      var headerMap := BuildHeaders(headers, inputValues);
      sent := Request(verb, url, headerMap, if verb != GET then Some(Json(StringObject(inputValues))) else None);
      if outcome.Success? {
        response := outcome.value;
      } else {
        error := ErrorFor(outcome.error);
      }
    }
  }
}

=== FILE: auth_guard.dfy ===
/** The route guard of components/auth-guard.tsx: pages outside /auth/ need
    a session, pages inside it are for visitors without one. */
module AuthGuard {
  import opened Wrappers
  import opened Text
  import Api

  const LoginRoute := "/auth/login"
  const DashboardRoute := "/dashboard"

  /** `pathname?.startsWith("/auth/")`, where a missing pathname counts as
      not being on an authentication page. */
  predicate OnAuthPage(pathname: Option<string>) {
    pathname.Some? && StartsWith(pathname.value, "/auth/")
  }

  /** Where the guard sends the visitor, if anywhere. */
  function Redirect(authenticated: bool, pathname: Option<string>): (r: Option<string>)
    ensures r == Some(LoginRoute) <==> !authenticated && !OnAuthPage(pathname)
    ensures r == Some(DashboardRoute) <==> authenticated && OnAuthPage(pathname)
    ensures r.None? <==> authenticated != OnAuthPage(pathname)
  {
    if !authenticated && !OnAuthPage(pathname) then Some(LoginRoute)
    else if authenticated && OnAuthPage(pathname) then Some(DashboardRoute)
    else None
  }

  /** A redirect lands on a page where the guard, with the same session,
      does not redirect again. */
  lemma RedirectSettles(authenticated: bool, pathname: Option<string>)
    requires Redirect(authenticated, pathname).Some?
    ensures Redirect(authenticated, Redirect(authenticated, pathname)).None?
  {
    if authenticated {
      assert DashboardRoute[1] == 'd';
      assert !StartsWith(DashboardRoute, "/auth/");
    } else {
      assert LoginRoute[..6] == "/auth/";
    }
  }

  /** The guard's state: `loading` is true until the check has run, and the
      protected content is shown only once it is false. */
  class Guard {
    var loading: bool

    constructor ()
      ensures loading
    {
      loading := true;
    }

    /** `checkAuth`: redirect as `Redirect` says, then stop loading. The
        content is shown afterwards even when a redirect was issued. */
    method CheckAuth(session: Api.Session, pathname: Option<string>) returns (push: Option<string>)
      modifies this
      ensures push == Redirect(session.IsAuthenticated(), pathname)
      ensures !loading
    {
      var authenticated := session.IsAuthenticated();
      if !authenticated && !(pathname.Some? && StartsWith(pathname.value, "/auth/")) {
        push := Some(LoginRoute);
      } else if authenticated && pathname.Some? && StartsWith(pathname.value, "/auth/") {
        push := Some(DashboardRoute);
      } else {
        push := None;
      }
      loading := false;
    }

    /** The children are rendered once `if (loading)` no longer returns the spinner. */
    predicate ShowsContent()
      reads this
    {
      !loading
    }
  }
}

=== FILE: code_block.dfy ===
/** The highlighted code block of components/code-block.tsx and its copy button. */
module CodeBlock {
  import opened Wrappers

  /** `getLanguageClass`: the highlighter class for a snippet language; curl
      snippets are highlighted as bash and unknown languages as JavaScript. */
  function LanguageClass(language: string): (r: string)
    ensures r in {"language-javascript", "language-python", "language-go", "language-bash"}
    ensures r == "language-bash" <==> language == "curl"
    ensures r == "language-python" <==> language == "python"
    ensures r == "language-go" <==> language == "go"
  {
    match language
    case "javascript" => "language-javascript"
    case "python" => "language-python"
    case "go" => "language-go"
    case "curl" => "language-bash"
    case _ => "language-javascript"
  }

  /** What pressing the copy button does: the text written to the clipboard
      (if any) and the alert shown (if any). */
  datatype CopyEffect = CopyEffect(clipboard: Option<string>, alert: Option<string>)

  /** `copyToClipboard`. `written` says whether the clipboard write resolves;
      the confirmation waits for it, and a rejected write shows nothing. */
  function CopyToClipboard(text: string, written: bool): (r: CopyEffect)
    ensures r.clipboard.Some? <==> text != ""
    ensures r.clipboard.Some? ==> r.clipboard.value == text
    ensures text == "" ==> r.alert == Some("Nothing to copy!")
    ensures text != "" ==> (r.alert.Some? <==> written)
    ensures text != "" && written ==> r.alert == Some("Copied to clipboard!")
  {
    if text != "" then CopyEffect(Some(text), if written then Some("Copied to clipboard!") else None)
    else CopyEffect(None, Some("Nothing to copy!"))
  }
}

=== FILE: create_api_key_button.dfy ===
/** The key creation dialog of components/create-api-key-button.tsx. */
module CreateApiKeyButton {
  import opened Wrappers
  import opened Js
  import opened Types
  import opened Http
  import opened Ui
  import Api

  const Created := Toast("Success", "API key created successfully", false)
  const CreateFailed := Toast("Error", "Failed to create API key", true)
  const KeyCopied := Toast("Copied!", "API key copied to clipboard", false)

  /** What creating a key with `response` yields: the `api_key` of the
      accepted body, or a failure (reading it from a `null` body throws). */
  function CreatedKey(session: Api.Session, response: HttpResponse): (r: Result<Value, string>)
    reads session
    ensures !session.IsAuthenticated() ==> r.Failure?
    ensures session.IsAuthenticated() && response.ok && response.body.Success? && response.body.value.Obj? ==>
      r == Success(Get(response.body.value, "api_key"))
    ensures session.IsAuthenticated() && Api.HandleResponse(response).Failure? ==>
      r == Failure(Api.HandleResponse(response).error)
    ensures session.IsAuthenticated() && Api.HandleResponse(response) == Success(Null) ==> r.Failure?
  {
    if !session.IsAuthenticated() then Failure(Api.AuthRequired)
    else match Api.HandleResponse(response)
      case Failure(e) => Failure(e)
      case Success(v) => Read(v, "api_key")
  }

  class CreateDialog {
    var open: bool
    var description: string
    var loading: bool
    var newApiKey: Value

    constructor ()
      ensures !open && description == "" && !loading && newApiKey == Null
    {
      open := false;
      description := "";
      loading := false;
      newApiKey := Null;
    }

    /** `{!newApiKey ? (form) : (key)}`: the dialog shows the new key instead of
        the form while the key is truthy. */
    predicate ShowsKey()
      reads this
    {
      Truthy(newApiKey)
    }

    /** `onOpenChange`. */
    method SetOpen(value: bool)
      modifies this
      ensures open == value && description == old(description) && newApiKey == old(newApiKey)
      ensures loading == old(loading)
    {
      open := value;
    }

    /** `handleSubmit`: create a key with the typed description (sent even
        when empty); on success keep the returned key and confirm, otherwise
        show an error toast. */
    method HandleSubmit(session: Api.Session, response: HttpResponse)
      returns (sent: Option<Request>, toast: Toast)
      modifies this
      ensures !loading && open == old(open) && description == old(description)
      ensures session.IsAuthenticated() ==>
        sent == Some(Request(POST, Api.BaseUrl + "/api-keys",
          Api.JsonContent["Authorization" := session.Bearer()],
          Some(Json(Api.DescriptionBody(Some(description))))))
      ensures !session.IsAuthenticated() ==> sent.None?
      ensures CreatedKey(session, response).Success? ==>
        newApiKey == CreatedKey(session, response).value && toast == Created
      ensures CreatedKey(session, response).Failure? ==> newApiKey == old(newApiKey) && toast == CreateFailed
    {
      loading := true;
      var r;
      sent, r := session.CreateApiKey(Some(description), response);
      var key := if r.Success? then Read(r.value, "api_key") else Failure(r.error);
      if key.Success? {
        newApiKey := key.value;
        toast := Created;
      } else {
        toast := CreateFailed;
      }
      loading := false;
    }

    /** `handleCopyKey`: copies a truthy key and confirms; otherwise nothing. */
    method HandleCopyKey() returns (clipboard: Option<string>, toast: Option<Toast>)
      ensures Truthy(newApiKey) ==> clipboard == Some(ToDisplay(newApiKey)) && toast == Some(KeyCopied)
      ensures !Truthy(newApiKey) ==> clipboard.None? && toast.None?
    {
      if Truthy(newApiKey) {
        clipboard, toast := Some(ToDisplay(newApiKey)), Some(KeyCopied);
      } else {
        clipboard, toast := None, None;
      }
    }

    /** `handleClose`: close the dialog and forget the description and key. */
    method HandleClose()
      modifies this
      ensures !open && description == "" && newApiKey == Null && !ShowsKey() && loading == old(loading)
    {
      open := false;
      description := "";
      newApiKey := Null;
    }
  }
}

=== FILE: endpoints.dfy ===
/** The endpoint catalog of lib/endpoints.ts and the lookups the explorer
    makes in it. */
module Endpoints {
  import opened Wrappers
  import opened Text
  import opened Types

  /** The `{name}` placeholder for a path parameter. */
  function Token(name: string): string {
    "{" + name + "}"
  }

  /** The example JSON texts of the catalog: what `JSON.stringify(..., null, 2)`
      produces for the object literals in the source. */
  const AgentStartBody := "{\n  \"model_name\": \"anthropic/claude-3-7-sonnet-latest\",\n  \"enable_thinking\": false,\n  \"reasoning_effort\": \"low\",\n  \"stream\": true,\n  \"enable_context_manager\": false\n}"
  const AgentStartedExample := "{\n  \"success\": true,\n  \"message\": \"Agent started.\"\n}"
  const AgentStoppedExample := "{\n  \"success\": true,\n  \"message\": \"Agent stopped.\"\n}"
  const AgentRunsExample := "{\n  \"agent_runs\": []\n}"
  const CredentialsBody := "{\n  \"email\": \"user@example.com\",\n  \"password\": \"password123\"\n}"
  const TokenExample := "{\n  \"access_token\": \"token\",\n  \"token_type\": \"bearer\"\n}"

  const StartAgent := Endpoint(
    "/api/thread/{thread_id}/agent/start", POST,
    "Start an agent for a specific thread in the background.",
    "Agent Management", Some(["thread_id"]),
    Some(AgentStartBody), Some(AgentStartedExample), None)

  const StopAgent := Endpoint(
    "/api/agent-run/{agent_run_id}/stop", POST,
    "Stop a running agent.",
    "Agent Management", Some(["agent_run_id"]),
    None, Some(AgentStoppedExample), None)

  const AgentRuns := Endpoint(
    "/api/thread/{thread_id}/agent-runs", GET,
    "Get all agent runs for a thread.",
    "Agent Management", Some(["thread_id"]),
    None, Some(AgentRunsExample), None)

  const Signup := Endpoint(
    "/api/signup", POST,
    "Signup a new user.",
    "Authentication", None,
    Some(CredentialsBody), Some(TokenExample), None)

  const Signin := Endpoint(
    "/api/signin", POST,
    "Signin an existing user.",
    "Authentication", None,
    Some(CredentialsBody), Some(TokenExample), None)

  /** `updatedEndpoints`, in declaration order. */
  const UpdatedEndpoints: seq<Endpoint> := [StartAgent, StopAgent, AgentRuns, Signup, Signin]

  /** A descriptor's placeholders agree with its declared path parameters:
      each declared name occurs as `{name}`, and a path without declared
      parameters has no placeholder at all. */
  ghost predicate WellFormed(e: Endpoint) {
    match e.pathParams
    case Some(params) => forall k :: 0 <= k < |params| ==> Occurs(e.path, Token(params[k]))
    case None => '{' !in e.path
  }

  predicate PathsDistinct(c: seq<Endpoint>) {
    forall i, j :: 0 <= i < j < |c| ==> c[i].path != c[j].path
  }

  /** The index of the first descriptor whose path is `path`. */
  function FindIndex(c: seq<Endpoint>, path: string): (r: Option<nat>)
    ensures r.Some? ==> r.value < |c| && c[r.value].path == path
    ensures r.Some? ==> forall j :: 0 <= j < r.value ==> c[j].path != path
    ensures r.None? ==> forall j :: 0 <= j < |c| ==> c[j].path != path
  {
    if c == [] then None
    else if c[0].path == path then Some(0)
    else
      match FindIndex(c[1..], path)
      case None => None
      case Some(i) => Some(i + 1)
  }

  /** `endpoints.find((e) => e.path === value)`. */
  function FindByPath(c: seq<Endpoint>, path: string): (r: Option<Endpoint>)
    ensures r.None? <==> forall j :: 0 <= j < |c| ==> c[j].path != path
    ensures r.Some? ==> exists i :: 0 <= i < |c| && c[i] == r.value && c[i].path == path &&
                                   forall j :: 0 <= j < i ==> c[j].path != path
  {
    match FindIndex(c, path)
    case None => None
    case Some(i) => Some(c[i])
  }

  /** The categories of a catalog, each once, in order of first occurrence. */
  function Categories(c: seq<Endpoint>): seq<string> {
    if c == [] then []
    else
      var rest := Categories(c[..|c| - 1]);
      if c[|c| - 1].category in rest then rest else rest + [c[|c| - 1].category]
  }

  /** `Categories` lists every category of the catalog, and nothing else,
      without repetition. */
  lemma {:induction false} CategoriesMembers(c: seq<Endpoint>)
    ensures forall x :: x in Categories(c) <==> exists k :: 0 <= k < |c| && c[k].category == x
    ensures forall i, j :: 0 <= i < j < |Categories(c)| ==> Categories(c)[i] != Categories(c)[j]
    decreases |c|
  {
    if c != [] {
      var init := c[..|c| - 1];
      CategoriesMembers(init);
      assert forall k :: 0 <= k < |init| ==> init[k] == c[k];
    }
  }

  /** The descriptors of one category, in catalog order. */
  function InCategory(c: seq<Endpoint>, category: string): seq<Endpoint> {
    if c == [] then []
    else (if c[0].category == category then [c[0]] else []) + InCategory(c[1..], category)
  }

  /** `InCategory` keeps exactly the descriptors of the category. */
  lemma {:induction false} InCategoryMembers(c: seq<Endpoint>, category: string)
    ensures |InCategory(c, category)| <= |c|
    ensures forall e :: e in InCategory(c, category) <==> e in c && e.category == category
  {
    if c != [] {
      InCategoryMembers(c[1..], category);
      assert c == [c[0]] + c[1..];
    }
  }

  /** With distinct paths, looking a descriptor up by its own path finds it. */
  lemma LookupByOwnPath(c: seq<Endpoint>, i: nat)
    requires PathsDistinct(c) && i < |c|
    ensures FindByPath(c, c[i].path) == Some(c[i])
  {
  }

  /** The single path parameter of an entry whose path is `pre + {name} + post`
      occurs as a placeholder. */
  lemma SingleParamWellFormed(e: Endpoint, pre: string, name: string, post: string)
    requires e.pathParams == Some([name]) && e.path == pre + Token(name) + post
    ensures WellFormed(e)
  {
    OccursMiddle(pre, Token(name), post);
  }

  lemma StartAgentWellFormed() ensures WellFormed(StartAgent) {
    SingleParamWellFormed(StartAgent, "/api/thread/", "thread_id", "/agent/start");
  }

  lemma StopAgentWellFormed() ensures WellFormed(StopAgent) {
    SingleParamWellFormed(StopAgent, "/api/agent-run/", "agent_run_id", "/stop");
  }

  lemma AgentRunsWellFormed() ensures WellFormed(AgentRuns) {
    SingleParamWellFormed(AgentRuns, "/api/thread/", "thread_id", "/agent-runs");
  }

  /** Every path parameter of the catalog occurs as a placeholder in its path,
      and the entries without parameters have no placeholder. */
  lemma CatalogWellFormed()
    ensures forall i :: 0 <= i < |UpdatedEndpoints| ==> WellFormed(UpdatedEndpoints[i])
  {
    StartAgentWellFormed();
    StopAgentWellFormed();
    AgentRunsWellFormed();
    assert WellFormed(Signup) && WellFormed(Signin);
  }

  /** Paths are pairwise distinct, so lookup by path alone is unambiguous. */
  lemma CatalogPathsDistinct()
    ensures PathsDistinct(UpdatedEndpoints)
    ensures forall i :: 0 <= i < |UpdatedEndpoints| ==>
      FindByPath(UpdatedEndpoints, UpdatedEndpoints[i].path) == Some(UpdatedEndpoints[i])
  {
    var c := UpdatedEndpoints;
    assert c[0].path[29] == '/' && c[2].path[29] == '-';
    assert c[3].path[9] == 'u' && c[4].path[9] == 'i';
    forall i | 0 <= i < |c| ensures FindByPath(c, c[i].path) == Some(c[i]) {
      LookupByOwnPath(c, i);
    }
  }

  /** Every method is GET or POST; the only GET entry carries no request body. */
  lemma CatalogMethods()
    ensures forall i :: 0 <= i < |UpdatedEndpoints| ==> UpdatedEndpoints[i].verb in {GET, POST}
    ensures forall i :: 0 <= i < |UpdatedEndpoints| && UpdatedEndpoints[i].verb == GET ==>
      i == 2 && UpdatedEndpoints[i].requestBody.None?
  {
  }

  /** Appending a descriptor adds its category at the end unless already present. */
  lemma CategoriesStep(c: seq<Endpoint>, e: Endpoint, prev: seq<string>)
    requires Categories(c) == prev
    ensures Categories(c + [e]) == if e.category in prev then prev else prev + [e.category]
  {
    assert (c + [e])[..|c|] == c;
  }

  /** Filtering a catalog with one more descriptor in front. */
  lemma InCategoryStep(e: Endpoint, d: seq<Endpoint>, category: string, prev: seq<Endpoint>)
    requires InCategory(d, category) == prev
    ensures InCategory([e] + d, category) == if e.category == category then [e] + prev else prev
  {
    assert ([e] + d)[1..] == d;
  }

  /** Five descriptors built up from either end are the same sequence. */
  lemma FiveInOrder(e1: Endpoint, e2: Endpoint, e3: Endpoint, e4: Endpoint, e5: Endpoint)
    ensures [] + [e1] + [e2] + [e3] + [e4] + [e5] == [e1, e2, e3, e4, e5]
    ensures [e1] + ([e2] + ([e3] + ([e4] + [e5]))) == [e1, e2, e3, e4, e5]
  {
    var s := [] + [e1] + [e2] + [e3] + [e4] + [e5];
    assert |s| == 5;
    assert s[0] == e1 && s[1] == e2 && s[2] == e3 && s[3] == e4 && s[4] == e5;
    var t := [e1] + ([e2] + ([e3] + ([e4] + [e5])));
    assert |t| == 5;
    assert t[0] == e1 && t[1] == e2 && t[2] == e3 && t[3] == e4 && t[4] == e5;
  }

  lemma Pair(a: string, b: string)
    ensures [a] + [b] == [a, b]
  {
  }

  /** Five descriptors, three of category `a` followed by two of category `b`:
      the categories are `a` then `b`, and each group keeps its members in order. */
  lemma ThreeThenTwo(e1: Endpoint, e2: Endpoint, e3: Endpoint, e4: Endpoint, e5: Endpoint, a: string, b: string)
    requires e1.category == a && e2.category == a && e3.category == a
    requires e4.category == b && e5.category == b && a != b
    ensures Categories([e1, e2, e3, e4, e5]) == [a, b]
    ensures InCategory([e1, e2, e3, e4, e5], a) == [e1, e2, e3]
    ensures InCategory([e1, e2, e3, e4, e5], b) == [e4, e5]
  {
    FiveInOrder(e1, e2, e3, e4, e5);
    CategorySteps(e1, e2, e3, e4, e5, a, b);
    FilterStepsA(e1, e2, e3, e4, e5, a);
    FilterStepsB(e1, e2, e3, e4, e5, b);
  }

  /** Three descriptors of one category. */
  lemma SameCategory(e1: Endpoint, e2: Endpoint, e3: Endpoint, a: string)
    requires e1.category == a && e2.category == a && e3.category == a
    ensures Categories([] + [e1] + [e2] + [e3]) == [a]
  {
    var c1 := [] + [e1];
    CategoriesStep([], e1, []);
    var c2 := c1 + [e2];
    CategoriesStep(c1, e2, [a]);
    CategoriesStep(c2, e3, [a]);
  }

  /** The categories, one descriptor at a time from the front. */
  lemma CategorySteps(e1: Endpoint, e2: Endpoint, e3: Endpoint, e4: Endpoint, e5: Endpoint, a: string, b: string)
    requires e1.category == a && e2.category == a && e3.category == a
    requires e4.category == b && e5.category == b && a != b
    ensures Categories([] + [e1] + [e2] + [e3] + [e4] + [e5]) == [a, b]
  {
    var c3 := [] + [e1] + [e2] + [e3];
    SameCategory(e1, e2, e3, a);
    var c4 := c3 + [e4];
    assert Categories(c4) == [a, b] by {
      CategoriesStep(c3, e4, [a]);
      Pair(a, b);
    }
    CategoriesStep(c4, e5, [a, b]);
  }

  lemma InCategorySingle(e: Endpoint, category: string)
    ensures InCategory([e], category) == if e.category == category then [e] else []
  {
    assert [e][1..] == [];
  }

  /** Two descriptors outside a category filter to nothing. */
  lemma LastTwoOutside(e4: Endpoint, e5: Endpoint, a: string)
    requires e4.category != a && e5.category != a
    ensures InCategory([e4] + [e5], a) == []
  {
    InCategorySingle(e5, a);
    InCategoryStep(e4, [e5], a, []);
  }

  /** Two descriptors inside a category filter to themselves. */
  lemma LastTwoInside(e4: Endpoint, e5: Endpoint, b: string)
    requires e4.category == b && e5.category == b
    ensures InCategory([e4] + [e5], b) == [e4, e5]
  {
    InCategorySingle(e5, b);
    InCategoryStep(e4, [e5], b, [e5]);
  }

  /** Filtering for the first group, one descriptor at a time from the back. */
  lemma FilterStepsA(e1: Endpoint, e2: Endpoint, e3: Endpoint, e4: Endpoint, e5: Endpoint, a: string)
    requires e1.category == a && e2.category == a && e3.category == a
    requires e4.category != a && e5.category != a
    ensures InCategory([e1] + ([e2] + ([e3] + ([e4] + [e5]))), a) == [e1, e2, e3]
  {
    LastTwoOutside(e4, e5, a);
    InCategoryStep(e3, [e4] + [e5], a, []);
    assert [e3] + [] == [e3];
    InCategoryStep(e2, [e3] + ([e4] + [e5]), a, [e3]);
    InCategoryStep(e1, [e2] + ([e3] + ([e4] + [e5])), a, [e2] + [e3]);
    assert [e1] + ([e2] + [e3]) == [e1, e2, e3];
  }

  /** Filtering for the second group, one descriptor at a time from the back. */
  lemma FilterStepsB(e1: Endpoint, e2: Endpoint, e3: Endpoint, e4: Endpoint, e5: Endpoint, b: string)
    requires e1.category != b && e2.category != b && e3.category != b
    requires e4.category == b && e5.category == b
    ensures InCategory([e1] + ([e2] + ([e3] + ([e4] + [e5]))), b) == [e4, e5]
  {
    LastTwoInside(e4, e5, b);
    InCategoryStep(e3, [e4] + [e5], b, [e4, e5]);
    InCategoryStep(e2, [e3] + ([e4] + [e5]), b, [e4, e5]);
    InCategoryStep(e1, [e2] + ([e3] + ([e4] + [e5])), b, [e4, e5]);
  }

  lemma CatalogShape()
    ensures UpdatedEndpoints == [StartAgent, StopAgent, AgentRuns, Signup, Signin]
    ensures StartAgent.category == "Agent Management" && StopAgent.category == "Agent Management"
    ensures AgentRuns.category == "Agent Management"
    ensures Signup.category == "Authentication" && Signin.category == "Authentication"
  {
  }

  /** The catalog's categories, in order of first occurrence: "Agent Management"
      and then "Authentication". */
  lemma CatalogCategories()
    ensures Categories(UpdatedEndpoints) == ["Agent Management", "Authentication"]
  {
    CatalogShape();
    ThreeThenTwo(StartAgent, StopAgent, AgentRuns, Signup, Signin, "Agent Management", "Authentication");
  }

  /** "Authentication" holds the last two entries, in declaration order. */
  lemma CatalogAuthenticationGroup()
    ensures InCategory(UpdatedEndpoints, "Authentication") == [Signup, Signin]
  {
    CatalogShape();
    ThreeThenTwo(StartAgent, StopAgent, AgentRuns, Signup, Signin, "Agent Management", "Authentication");
  }

  /** "Agent Management" holds the first three entries, in declaration order. */
  lemma CatalogAgentGroup()
    ensures InCategory(UpdatedEndpoints, "Agent Management") == [StartAgent, StopAgent, AgentRuns]
  {
    CatalogShape();
    ThreeThenTwo(StartAgent, StopAgent, AgentRuns, Signup, Signin, "Agent Management", "Authentication");
  }
}

=== FILE: http.dfy ===
/** HTTP requests as the dashboard builds them and responses as it receives them. */
module Http {
  import opened Wrappers
  import opened Js
  import opened Types

  /** A request body: text sent verbatim, or a value that the client library
      serialises with `JSON.stringify`. */
  datatype Payload = Text(text: string) | Json(value: Value)

  datatype Request = Request(
    verb: Method,
    url: string,
    headers: map<string, string>,
    body: Option<Payload>)

  /** A fetch `Response`: `body` is what `response.json()` settles to, the
      parsed value or the parser's error message. */
  datatype HttpResponse = HttpResponse(
    ok: bool,
    status: int,
    statusText: string,
    body: Result<Value, string>)
}

=== FILE: js.dfy ===
/** The JavaScript values the dashboard inspects: parsed JSON bodies and thrown
    errors. JSON arrays are not represented (see README). */
module Js {
  import opened Wrappers

  datatype Value =
    | Undefined
    | Null
    | Bool(b: bool)
    | Num(n: int)
    | Str(s: string)
    | Obj(fields: map<string, Value>)

  /** JavaScript truthiness (`!!v`): `undefined`, `null`, `false`, `0` and `""` are falsy. */
  predicate Truthy(v: Value) {
    match v
    case Undefined => false
    case Null => false
    case Bool(b) => b
    case Num(n) => n != 0
    case Str(s) => s != ""
    case Obj(_) => true
  }

  /** `typeof v === "object"` (true of `null` as well). */
  predicate IsObject(v: Value) {
    v.Null? || v.Obj?
  }

  /** `key in v` for an object `v` (own properties). */
  predicate Has(v: Value, key: string) {
    v.Obj? && key in v.fields
  }

  /** `v?.[key]`: a missing property, or any property of a non-object, is `undefined`. */
  function Get(v: Value, key: string): Value {
    if Has(v, key) then v.fields[key] else Undefined
  }

  /** `v[key]` without optional chaining: reading a property of `null` or
      `undefined` throws a TypeError (V8's message text). */
  function Read(v: Value, key: string): (r: Result<Value, string>)
    ensures r.Failure? <==> v.Null? || v.Undefined?
    ensures r.Success? ==> r.value == Get(v, key)
  {
    if v.Null? then Failure("Cannot read properties of null (reading '" + key + "')")
    else if v.Undefined? then Failure("Cannot read properties of undefined (reading '" + key + "')")
    else Success(Get(v, key))
  }

  /** The decimal digits of a natural number. */
  function NatToString(n: nat): (r: string)
    ensures |r| > 0 && forall i :: 0 <= i < |r| ==> '0' <= r[i] <= '9'
  {
    var d := ['0' + (n % 10) as char];
    if n < 10 then d else NatToString(n / 10) + d
  }

  /** `String(n)` for an integer. */
  function IntToString(n: int): string {
    if n < 0 then "-" + NatToString(-n) else NatToString(n)
  }

  /** `String(v)`, the text a value becomes when stored in `localStorage` or
      passed to `new Error(...)`. */
  function ToDisplay(v: Value): string {
    match v
    case Undefined => "undefined"
    case Null => "null"
    case Bool(b) => if b then "true" else "false"
    case Num(n) => IntToString(n)
    case Str(s) => s
    case Obj(_) => "[object Object]"
  }

  /** The object thrown by `new Error(message)`: its own `message` property. */
  function ErrorObject(message: string): (r: Value)
    ensures Truthy(r) && IsObject(r) && Get(r, "message") == Str(message)
  {
    Obj(map["message" := Str(message)])
  }

  /** A small JSON object whose properties are all strings. */
  function StringObject(m: map<string, string>): (r: Value)
    ensures r.Obj? && r.fields.Keys == m.Keys
    ensures forall k :: k in m ==> Get(r, k) == Str(m[k])
  {
    Obj(map k | k in m :: Str(m[k]))
  }
}

=== FILE: login_page.dfy ===
/** The sign-in form of app/auth/login/page.tsx. */
module LoginPage {
  import opened Wrappers
  import opened Text
  import opened Js
  import opened Http
  import opened Ui
  import Utils
  import Api

  const LoggedIn := Toast("Success", "You have been logged in successfully", false)
  const LoginFallback := "Invalid email or password"
  const UnconfirmedDefault := "Authentication failed: Email not confirmed"

  function LoginFailed(message: string): Toast {
    Toast("Login Failed", message, true)
  }

  /** Whether a failure message says the address is not confirmed yet
      (`/email not confirmed/i`). */
  predicate Unconfirmed(message: string) {
    ContainsFold(message, "email not confirmed")
  }

  lemma UnconfirmedExample()
    ensures Unconfirmed("Email not confirmed")
    ensures Unconfirmed(UnconfirmedDefault)
  {
    assert MatchesFoldAt("Email not confirmed", "email not confirmed", 0);
    var d := UnconfirmedDefault;
    assert d == "Authentication failed: " + "Email not confirmed";
    assert MatchesFoldAt(d, "email not confirmed", 23);
  }

  class LoginForm {
    var email: string
    var password: string
    var loading: bool
    var unconfirmed: bool
    var errorMsg: string

    constructor ()
      ensures email == "" && password == "" && !loading && !unconfirmed && errorMsg == ""
    {
      email := "";
      password := "";
      loading := false;
      unconfirmed := false;
      errorMsg := "";
    }

    /** The text of the unconfirmed-address panel, shown instead of the form
        while `unconfirmed` holds. */
    function PanelText(): (r: string)
      reads this
      ensures r != ""
      ensures errorMsg != "" ==> r == errorMsg
      ensures errorMsg == "" ==> r == UnconfirmedDefault
    {
      if errorMsg != "" then errorMsg else UnconfirmedDefault
    }

    /** The error under the form: shown only when there is one and the
        panel is not. */
    function InlineError(): (r: Option<string>)
      reads this
      ensures r.Some? <==> errorMsg != "" && !unconfirmed
      ensures r.Some? ==> r.value == errorMsg
    {
      if errorMsg != "" && !unconfirmed then Some(errorMsg) else None
    }

    /** `handleSubmit`. Success shows a toast and moves to the dashboard and
        leaves the previous error state as it was; a failure records its
        message and either switches to the unconfirmed-address panel or
        shows a toast. */
    method HandleSubmit(session: Api.Session, response: HttpResponse)
      returns (sent: Request, toast: Option<Toast>, push: Option<string>)
      modifies this, session
      ensures email == old(email) && password == old(password) && !loading
      ensures sent == Request(Types.POST, Api.BaseUrl + "/signin", Api.JsonContent,
        Some(Json(Api.CredentialsBody(email, password))))
      ensures Api.AccessToken(response).Success? ==>
        toast == Some(LoggedIn) && push == Some("/dashboard")
        && errorMsg == old(errorMsg) && unconfirmed == old(unconfirmed)
        && session.authToken == Some(ToDisplay(Api.AccessToken(response).value))
      ensures Api.AccessToken(response).Failure? ==>
        push.None? && errorMsg == Api.AccessToken(response).error
        && unconfirmed == Unconfirmed(errorMsg)
        && (toast.None? <==> unconfirmed)
        && (toast.Some? ==> toast.value == LoginFailed(errorMsg))
        && session.authToken == old(session.authToken)
    {
      loading := true;
      var r;
      sent, r := session.Login(email, password, response);
      if r.Success? {
        toast, push := Some(LoggedIn), Some("/dashboard");
      } else {
        var message := Utils.GetErrorMessage(ErrorObject(r.error), LoginFallback);
        Utils.ThrownErrorMessage(r.error, LoginFallback);
        errorMsg := message;
        if ContainsFold(message, "email not confirmed") {
          unconfirmed := true;
          toast := None;
        } else {
          unconfirmed := false;
          toast := Some(LoginFailed(message));
        }
        push := None;
      }
      loading := false;
    }
  }
}

=== FILE: register_page.dfy ===
/** The sign-up form of app/auth/register/page.tsx. */
module RegisterPage {
  import opened Wrappers
  import opened Text
  import opened Js
  import opened Http
  import opened Ui
  import Utils
  import Api

  const PasswordsDiffer := Toast("Passwords don't match", "Please make sure your passwords match", true)
  const TermsRequired := Toast("Terms and Conditions", "Please accept the terms and conditions to continue", true)
  const RegisterFallback := "There was an error creating your account"
  const CheckEmailRoute := "/auth/check-email"

  function RegistrationFailed(message: string): Toast {
    Toast("Registration Failed", message, true)
  }

  /** The messages under the email, password and confirmation fields. */
  datatype FieldErrors = FieldErrors(email: string, password: string, confirm: string)

  /** Which fields a failure message is shown under: the email field when it
      mentions "email", the confirmation field when it mentions "confirm
      password", and the password field when it mentions "password" but not
      "confirm password" (all ignoring case). */
  function FieldErrorsFor(message: string): (r: FieldErrors)
    ensures r.email == message || r.email == ""
    ensures r.password == message || r.password == ""
    ensures r.confirm == message || r.confirm == ""
    ensures r.email == (if ContainsFold(message, "email") then message else "")
    ensures r.password ==
      (if ContainsFold(message, "password") && !ContainsFold(message, "confirm password") then message else "")
    ensures r.confirm == (if ContainsFold(message, "confirm password") then message else "")
  {
    FieldErrors(
      if ContainsFold(message, "email") then message else "",
      if ContainsFold(message, "password") && !ContainsFold(message, "confirm password") then message else "",
      if ContainsFold(message, "confirm password") then message else "")
  }

  /** A message that mentions a password, in any case, is shown under
      exactly one of the two password fields. */
  lemma PasswordFieldsExclusive(message: string)
    ensures FieldErrorsFor(message).password == "" || FieldErrorsFor(message).confirm == ""
    ensures ContainsFold(message, "password") ==>
      (FieldErrorsFor(message).password == message) != (FieldErrorsFor(message).confirm == message)
  {
    if ContainsFold(message, "confirm password") {
      assert "confirm password" == "confirm " + "password";
      ContainsFoldSuffix(message, "confirm ", "password");
    }
  }

  /** A message about the confirmation goes under the confirmation field only. */
  lemma ConfirmPasswordExample()
    ensures FieldErrorsFor("Confirm Password is required") == FieldErrors("", "", "Confirm Password is required")
  {
    var m := "Confirm Password is required";
    assert MatchesFoldAt(m, "confirm password", 0);
    assert forall j :: 0 <= j < |m| ==> LowerAscii(m[j]) != 'l';
    NoFoldMatch(m, "email", 4);
  }

  class RegisterForm {
    var email: string
    var password: string
    var confirmPassword: string
    var acceptTerms: bool
    var loading: bool
    var errors: FieldErrors

    constructor ()
      ensures email == "" && password == "" && confirmPassword == "" && !acceptTerms && !loading
      ensures errors == FieldErrors("", "", "")
    {
      email := "";
      password := "";
      confirmPassword := "";
      acceptTerms := false;
      loading := false;
      errors := FieldErrors("", "", "");
    }

    /** `handleSubmit`. Differing passwords, then unaccepted terms, stop the
        submission with a toast. Otherwise `register` is called with an
        empty name; success moves to the check-email page, and a failure
        shows its message in a toast and under the fields it mentions. */
    method HandleSubmit(session: Api.Session, response: HttpResponse)
      returns (sent: Option<Request>, toast: Option<Toast>, push: Option<string>)
      modifies this, session
      ensures email == old(email) && password == old(password) && confirmPassword == old(confirmPassword)
      ensures acceptTerms == old(acceptTerms)
      ensures password != confirmPassword ==>
        sent.None? && toast == Some(PasswordsDiffer) && push.None?
        && errors == old(errors) && loading == old(loading) && session.authToken == old(session.authToken)
      ensures password == confirmPassword && !acceptTerms ==>
        sent.None? && toast == Some(TermsRequired) && push.None?
        && errors == old(errors) && loading == old(loading) && session.authToken == old(session.authToken)
      ensures password == confirmPassword && acceptTerms ==>
        sent == Some(Request(Types.POST, Api.BaseUrl + "/signup", Api.JsonContent,
          Some(Json(Api.CredentialsBody(email, password)))))
        && !loading
      ensures password == confirmPassword && acceptTerms && Api.AccessToken(response).Success? ==>
        push == Some(CheckEmailRoute) && toast.None? && errors == FieldErrors("", "", "")
        && session.authToken == Some(ToDisplay(Api.AccessToken(response).value))
      ensures password == confirmPassword && acceptTerms && Api.AccessToken(response).Failure? ==>
        push.None? && toast == Some(RegistrationFailed(Api.AccessToken(response).error))
        && errors == FieldErrorsFor(Api.AccessToken(response).error)
        && session.authToken == old(session.authToken)
    {
      if password != confirmPassword {
        return None, Some(PasswordsDiffer), None;
      }
      if !acceptTerms {
        return None, Some(TermsRequired), None;
      }
      loading := true;
      errors := FieldErrors("", "", "");
      var request, r := session.Register("", email, password, response);
      sent := Some(request);
      if r.Success? {
        push, toast := Some(CheckEmailRoute), None;
      } else {
        var message := Utils.GetErrorMessage(ErrorObject(r.error), RegisterFallback);
        Utils.ThrownErrorMessage(r.error, RegisterFallback);
        errors := FieldErrorsFor(message);
        push, toast := None, Some(RegistrationFailed(message));
      }
      loading := false;
    }
  }
}

=== FILE: reset_confirm_page.dfy ===
/** The new-password form of app/auth/reset-password/confirm/page.tsx. */
module ResetConfirmPage {
  import opened Wrappers
  import opened Js
  import opened Ui
  import Utils

  const InvalidToken := "Invalid or missing token."
  const TooShort := "Password should be at least 6 characters."
  const Mismatch := "Passwords do not match."
  const ResetFallback := "Could not reset password."
  const ResetDone := Toast("Password Reset Successful", "You can now log in with your new password.", false)

  /** `s.length`: JavaScript counts UTF-16 code units, so a character outside
      the Basic Multilingual Plane counts twice. */
  function Utf16Length(s: string): (r: nat)
    ensures |s| <= r <= 2 * |s|
  {
    if |s| == 0 then 0
    else (if s[0] as int > 0xFFFF then 2 else 1) + Utf16Length(s[1..])
  }

  /** The checks made before the request, in order: the token, the length,
      then the confirmation. `None` when all pass. */
  function Validate(token: string, password: string, confirmPassword: string): (r: Option<string>)
    ensures r.None? <==> token != "" && Utf16Length(password) >= 6 && password == confirmPassword
    ensures token == "" ==> r == Some(InvalidToken)
    ensures token != "" && Utf16Length(password) < 6 ==> r == Some(TooShort)
    ensures token != "" && Utf16Length(password) >= 6 && password != confirmPassword ==> r == Some(Mismatch)
  {
    if token == "" then Some(InvalidToken)
    else if Utf16Length(password) < 6 then Some(TooShort)
    else if password != confirmPassword then Some(Mismatch)
    else None
  }

  /** Six characters always pass the length check, and so does a shorter
      password made of enough characters outside the Basic Multilingual Plane. */
  lemma LengthCheckExamples()
    ensures Validate("t", "abcdef", "abcdef").None?
    ensures Validate("t", "abcde", "abcde") == Some(TooShort)
    ensures Validate("t", "\U{1F600}\U{1F600}\U{1F600}", "\U{1F600}\U{1F600}\U{1F600}").None?
  {
    assert Utf16Length("abcde") == 5;
    assert Utf16Length("\U{1F600}\U{1F600}\U{1F600}") == 6;
  }

  /** The form; `token` is the `token` query parameter, or "" without one. */
  class ResetConfirmForm {
    const token: string
    var password: string
    var confirmPassword: string
    var loading: bool
    var success: bool
    var error: string

    constructor (query: Option<string>)
      ensures token == query.GetOr("")
      ensures password == "" && confirmPassword == "" && !loading && !success && error == ""
    {
      token := query.GetOr("");
      password := "";
      confirmPassword := "";
      loading := false;
      success := false;
      error := "";
    }

    /** `handleSubmit`. `outcome` is what `resetPassword` settles to. A failed
        check shows its message and sends nothing; otherwise the request is
        made, and success shows a toast and schedules the move to the login
        page, while a rejection shows the error's message. */
    method HandleSubmit(outcome: Outcome<Value>)
      returns (sent: bool, toast: Option<Toast>, pushLater: Option<string>)
      modifies this
      ensures password == old(password) && confirmPassword == old(confirmPassword)
      ensures sent <==> Validate(token, password, confirmPassword).None?
      ensures !sent ==>
        error == Validate(token, password, confirmPassword).value
        && toast.None? && pushLater.None? && success == old(success) && loading == old(loading)
      ensures sent ==> !loading
      ensures sent && outcome.Pass? ==>
        success && error == "" && toast == Some(ResetDone) && pushLater == Some("/auth/login")
      ensures sent && outcome.Fail? ==>
        error == Utils.GetErrorMessage(outcome.error, ResetFallback) && success == old(success)
        && toast.None? && pushLater.None?
    {
      error := "";
      var check := Validate(token, password, confirmPassword);
      if check.Some? {
        error := check.value;
        return false, None, None;
      }
      sent := true;
      loading := true;
      if outcome.Pass? {
        success := true;
        toast, pushLater := Some(ResetDone), Some("/auth/login");
      } else {
        error := Utils.GetErrorMessage(outcome.error, ResetFallback);
        toast, pushLater := None, None;
      }
      loading := false;
    }
  }
}

=== FILE: reset_request_page.dfy ===
/** The reset-link request form of app/auth/reset-password/page.tsx. */
module ResetRequestPage {
  import opened Wrappers
  import opened Js
  import opened Ui

  const LinkSent := Toast("Reset link sent",
    "If an account exists with this email, you'll receive a password reset link", false)

  class ResetRequestForm {
    var email: string
    var loading: bool
    var submitted: bool

    constructor ()
      ensures email == "" && !loading && !submitted
    {
      email := "";
      loading := false;
      submitted := false;
    }

    /** `{!submitted ? (form) : (confirmation)}`: the form is shown until a
        request has been submitted. */
    predicate FormShown()
      reads this
    {
      !submitted
    }

    /** `handleSubmit`. `outcome` is what `requestPasswordReset` settles to.
        The page moves to its confirmation whether or not the request
        failed, so it reveals nothing about which addresses have accounts;
        only a success shows a toast. */
    method HandleSubmit(outcome: Outcome<Value>) returns (toast: Option<Toast>)
      modifies this
      ensures submitted && !FormShown() && !loading && email == old(email)
      ensures outcome.Pass? ==> toast == Some(LinkSent)
      ensures outcome.Fail? ==> toast.None?
    {
      loading := true;
      if outcome.Pass? {
        submitted := true;
        toast := Some(LinkSent);
      } else {
        submitted := true;
        toast := None;
      }
      loading := false;
    }

    /** "Try again": the form is shown again, with the address kept. */
    method TryAgain()
      modifies this
      ensures !submitted && FormShown() && email == old(email) && loading == old(loading)
    {
      submitted := false;
    }
  }
}

=== FILE: text.dfy ===
/** String searching as the dashboard's JavaScript uses it: `indexOf`,
    `String.prototype.replace` with a string pattern, `startsWith`, and
    case-insensitive regular-expression tests on ASCII patterns. */
module Text {
  import opened Wrappers

  /** `t` occurs in `s` starting at index `i`. */
  predicate OccursAt(s: string, t: string, i: int) {
    0 <= i && i + |t| <= |s| && s[i..i + |t|] == t
  }

  /** The first index at or after `from` at which `t` occurs in `s`. */
  function IndexOfFrom(s: string, t: string, from: nat): (r: Option<nat>)
    decreases |s| - from
    ensures r.Some? ==> from <= r.value && OccursAt(s, t, r.value)
    ensures r.Some? ==> forall j :: from <= j < r.value ==> !OccursAt(s, t, j)
    ensures r.None? ==> forall j :: from <= j ==> !OccursAt(s, t, j)
  {
    if from + |t| > |s| then None
    else if s[from..from + |t|] == t then Some(from)
    else IndexOfFrom(s, t, from + 1)
  }

  /** JavaScript's `s.indexOf(t)`, with "not found" as `None`. */
  function IndexOf(s: string, t: string): Option<nat> {
    IndexOfFrom(s, t, 0)
  }

  predicate Contains(s: string, t: string) {
    IndexOf(s, t).Some?
  }

  /** `t` occurs somewhere in `s`; the specification of `Contains`. */
  ghost predicate Occurs(s: string, t: string) {
    exists i :: OccursAt(s, t, i)
  }

  lemma ContainsIsOccurs(s: string, t: string)
    ensures Contains(s, t) <==> Occurs(s, t)
  {
  }

  /** An occurrence before which `t` does not start is the first one. */
  lemma {:induction false} FirstOccurrence(s: string, t: string, i: nat)
    requires OccursAt(s, t, i)
    requires forall j :: 0 <= j < i ==> !OccursAt(s, t, j)
    ensures IndexOf(s, t) == Some(i)
  {
  }

  /** Any occurrence makes `Contains` true. */
  lemma OccursContains(s: string, t: string, i: nat)
    requires OccursAt(s, t, i)
    ensures Contains(s, t)
  {
  }

  /** A text placed between two others occurs in the whole. */
  lemma OccursMiddle(a: string, t: string, b: string)
    ensures Occurs(a + t + b, t)
  {
    assert OccursAt(a + t + b, t, |a|) by {
      assert (a + t + b)[|a|..|a| + |t|] == t;
    }
  }

  /** An occurrence inside a text is an occurrence in anything around it. */
  lemma OccursWithin(a: string, s: string, b: string, t: string)
    requires Occurs(s, t)
    ensures Occurs(a + s + b, t)
  {
    var i :| OccursAt(s, t, i);
    assert (a + s + b)[|a| + i..|a| + i + |t|] == s[i..i + |t|];
    assert OccursAt(a + s + b, t, |a| + i);
  }

  /** The text that replaces a match in `String.prototype.replace` with a
      string pattern and a string replacement (no capture groups exist):
      `$$` becomes `$`, `$&` the match, `` $` `` the text before it and `$'`
      the text after it; every other character, `$` included, is kept. */
  function Expand(v: string, matched: string, before: string, after: string): string
    decreases |v|
  {
    if |v| == 0 then ""
    else if v[0] == '$' && |v| >= 2 && v[1] in "$&`'" then
      var part := match v[1]
        case '$' => "$"
        case '&' => matched
        case '`' => before
        case _ => after;
      part + Expand(v[2..], matched, before, after)
    else [v[0]] + Expand(v[1..], matched, before, after)
  }

  /** A replacement without `$` is inserted as it is. */
  lemma {:induction false} ExpandPlain(v: string, matched: string, before: string, after: string)
    requires '$' !in v
    ensures Expand(v, matched, before, after) == v
    decreases |v|
  {
    if |v| > 0 {
      assert v[0] != '$' && '$' !in v[1..];
      ExpandPlain(v[1..], matched, before, after);
      assert [v[0]] + v[1..] == v;
    }
  }

  /** `s.replace(pat, v)` with a string pattern: only the first occurrence is
      replaced, and `v` is expanded as above. */
  function ReplaceFirst(s: string, pat: string, v: string): string {
    match IndexOf(s, pat)
    case None => s
    case Some(i) => s[..i] + Expand(v, pat, s[..i], s[i + |pat|..]) + s[i + |pat|..]
  }

  /** Replacing a pattern whose first character is absent from the prefix
      before an occurrence, with a replacement free of `$`, edits exactly that
      occurrence. */
  lemma ReplaceAt(p: string, pat: string, q: string, v: string)
    requires |pat| > 0 && pat[0] !in p && '$' !in v
    ensures ReplaceFirst(p + pat + q, pat, v) == p + v + q
  {
    var s := p + pat + q;
    assert s[|p|..|p| + |pat|] == pat;
    forall j | 0 <= j < |p| ensures !OccursAt(s, pat, j) {
      assert s[j] == p[j];
    }
    FirstOccurrence(s, pat, |p|);
    assert s[..|p|] == p;
    assert s[|p| + |pat|..] == q;
    ExpandPlain(v, pat, p, q);
  }

  /** With `$&` as the replacement the text is unchanged: the match is put
      back in its own place. */
  lemma ReplaceWithMatch(s: string, pat: string)
    ensures ReplaceFirst(s, pat, "$&") == s
  {
    match IndexOf(s, pat)
    case None =>
    case Some(i) =>
      assert Expand("$&", pat, s[..i], s[i + |pat|..]) == pat;
      assert s[..i] + pat + s[i + |pat|..] == s;
  }

  /** `s.startsWith(p)`. */
  predicate StartsWith(s: string, p: string) {
    |p| <= |s| && s[..|p|] == p
  }

  lemma StartsWithConcat(p: string, q: string)
    ensures StartsWith(p + q, p)
  {
    assert (p + q)[..|p|] == p;
  }

  lemma NoCharInConcat(c: char, a: string, b: string)
    requires c !in a && c !in b
    ensures c !in a + b
  {
  }

  /** The lower-case form of an ASCII letter; every other character is kept. */
  function LowerAscii(c: char): char {
    if 'A' <= c <= 'Z' then (c as int + 32) as char else c
  }

  /** `s.toLowerCase()` restricted to ASCII letters. */
  function LowerString(s: string): (r: string)
    ensures |r| == |s| && forall i :: 0 <= i < |s| ==> r[i] == LowerAscii(s[i])
  {
    seq(|s|, i requires 0 <= i < |s| => LowerAscii(s[i]))
  }

  /** `pat` matches `s` at index `i` ignoring the case of ASCII letters. */
  predicate MatchesFoldAt(s: string, pat: string, i: int) {
    0 <= i && i + |pat| <= |s| &&
    forall k :: 0 <= k < |pat| ==> LowerAscii(s[i + k]) == LowerAscii(pat[k])
  }

  /** Whether `pat` matches somewhere at or after `from`, ignoring case. */
  function ContainsFoldFrom(s: string, pat: string, from: nat): (r: bool)
    decreases |s| - from
    ensures r <==> exists i :: from <= i && MatchesFoldAt(s, pat, i)
  {
    if from + |pat| > |s| then false
    else if MatchesFoldAt(s, pat, from) then true
    else
      var rest := ContainsFoldFrom(s, pat, from + 1);
      assert forall i :: from <= i && MatchesFoldAt(s, pat, i) ==> i == from || from + 1 <= i;
      rest
  }

  /** `/pat/i.test(s)` for a pattern made of ASCII letters and spaces. In
      JavaScript's non-Unicode regular expressions, case folding maps no
      non-ASCII character onto an ASCII one, so folding ASCII letters is exact. */
  predicate ContainsFold(s: string, pat: string) {
    ContainsFoldFrom(s, pat, 0)
  }

  /** A pattern with a letter that no character of `s` folds to does not
      match `s`. */
  lemma NoFoldMatch(s: string, pat: string, k: nat)
    requires k < |pat|
    requires forall j :: 0 <= j < |s| ==> LowerAscii(s[j]) != LowerAscii(pat[k])
    ensures !ContainsFold(s, pat)
  {
    forall i | 0 <= i && i + |pat| <= |s|
      ensures !MatchesFoldAt(s, pat, i)
    {
      assert LowerAscii(s[i + k]) != LowerAscii(pat[k]);
    }
  }

  /** A case-insensitive match of `pre + pat` also matches `pat`. */
  lemma {:induction false} ContainsFoldSuffix(s: string, pre: string, pat: string)
    requires ContainsFold(s, pre + pat)
    ensures ContainsFold(s, pat)
  {
    var i :| 0 <= i && MatchesFoldAt(s, pre + pat, i);
    forall k | 0 <= k < |pat|
      ensures LowerAscii(s[i + |pre| + k]) == LowerAscii(pat[k])
    {
      assert (pre + pat)[|pre| + k] == pat[k];
    }
    assert MatchesFoldAt(s, pat, i + |pre|);
  }
}

=== FILE: types.dfy ===
/** The record shapes of lib/types.ts. */
module Types {
  import opened Wrappers

  /** `"GET" | "POST" | "PUT" | "DELETE"`. */
  datatype Method = GET | POST | PUT | DELETE

  function MethodName(m: Method): string {
    match m
    case GET => "GET"
    case POST => "POST"
    case PUT => "PUT"
    case DELETE => "DELETE"
  }

  /** An endpoint descriptor. Optional fields are `None` when absent. The
      category is a plain string: the catalog uses labels outside the union
      that lib/types.ts declares. */
  datatype Endpoint = Endpoint(
    path: string,
    verb: Method,
    description: string,
    category: string,
    pathParams: Option<seq<string>>,
    requestBody: Option<string>,
    responseExample: Option<string>,
    defaultBody: Option<string>)

  /** A stored key as listed by the backend. `lastUsed` is the date text
      of the last use, `None` for `null`. */
  datatype ApiKey = ApiKey(
    keyId: string,
    createdAt: string,
    description: Option<string>,
    lastUsed: Option<string>)
}

=== FILE: ui.dfy ===
/** Notifications shown by the dashboard's toast hook. */
module Ui {
  datatype Toast = Toast(title: string, description: string, destructive: bool)
}

=== FILE: utils.dfy ===
/** `getErrorMessage` of lib/utils.ts: the text shown for a caught error. */
module Utils {
  import opened Wrappers
  import opened Js

  const DefaultFallback := "There was an error."

  /** `error.response.data.detail` when every step of the chain is present,
      truthy where tested, an object where tested, and the last one a string. */
  function ResponseDataDetail(error: Value): Option<string> {
    if Has(error, "response") && Truthy(Get(error, "response")) && IsObject(Get(error, "response")) then
      var response := Get(error, "response");
      if Has(response, "data") && Truthy(Get(response, "data")) && IsObject(Get(response, "data")) then
        var data := Get(response, "data");
        if Has(data, "detail") && Get(data, "detail").Str? then Some(Get(data, "detail").s) else None
      else None
    else None
  }

  /** A string-valued own property of `error`. */
  function StringField(error: Value, key: string): Option<string> {
    if Has(error, key) && Get(error, key).Str? then Some(Get(error, key).s) else None
  }

  /** The message for `error`: the fallback for a falsy error, the error itself
      for a string, else the first string among `response.data.detail`,
      `detail` and `message`, else the fallback. */
  function GetErrorMessage(error: Value, fallback: string): (r: string)
    ensures !Truthy(error) ==> r == fallback
    ensures error.Str? && error.s != "" ==> r == error.s
    ensures r == fallback || (error.Str? && r == error.s)
      || ResponseDataDetail(error) == Some(r)
      || StringField(error, "detail") == Some(r)
      || StringField(error, "message") == Some(r)
  {
    if !Truthy(error) then fallback
    else if error.Str? then error.s
    else if IsObject(error) then
      match ResponseDataDetail(error)
      case Some(d) => d
      case None =>
        match StringField(error, "detail")
        case Some(d) => d
        case None =>
          match StringField(error, "message")
          case Some(m) => m
          case None => fallback
    else fallback
  }

  /** An axios-style `response.data.detail` string wins over a top-level
      `detail` and over `message`. */
  lemma ResponseDetailFirst(error: Value, fallback: string, d: string)
    requires error.Obj? && ResponseDataDetail(error) == Some(d)
    ensures GetErrorMessage(error, fallback) == d
  {
  }

  /** Without a response detail, a string `detail` wins over `message`. */
  lemma DirectDetailBeforeMessage(error: Value, fallback: string, d: string)
    requires error.Obj? && ResponseDataDetail(error).None?
    requires StringField(error, "detail") == Some(d)
    ensures GetErrorMessage(error, fallback) == d
  {
  }

  /** With neither detail, a string `message` is used; with none of the three
      the fallback is. */
  lemma MessageThenFallback(error: Value, fallback: string)
    requires error.Obj? && ResponseDataDetail(error).None? && StringField(error, "detail").None?
    ensures StringField(error, "message").Some? ==>
      GetErrorMessage(error, fallback) == StringField(error, "message").value
    ensures StringField(error, "message").None? ==> GetErrorMessage(error, fallback) == fallback
  {
  }

  /** Truthy non-string primitives (`true`, a non-zero number) give the fallback. */
  lemma PrimitiveGivesFallback(error: Value, fallback: string)
    requires error.Bool? || error.Num?
    ensures GetErrorMessage(error, fallback) == fallback
  {
  }

  /** An `Error` thrown by the API layer yields its own message. */
  lemma ThrownErrorMessage(message: string, fallback: string)
    ensures GetErrorMessage(ErrorObject(message), fallback) == message
  {
    var e := ErrorObject(message);
    assert !Has(e, "response") && !Has(e, "detail");
  }
}

=== FILE: wrappers.dfy ===
/** Optional values and success/failure outcomes, used wherever the dashboard
    reads a nullable field or awaits a promise that may reject. */
module Wrappers {

  /** A value that may be absent (`null` / `undefined` on the JavaScript side). */
  datatype Option<+T> = None | Some(value: T) {
    function GetOr(default: T): T {
      match this
      case Some(v) => v
      case None => default
    }
  }

  /** The settled state of a promise that yields a value: resolved or rejected. */
  datatype Result<+R, +E> = Success(value: R) | Failure(error: E)

  /** The settled state of a promise that yields nothing: resolved or rejected. */
  datatype Outcome<+E> = Pass | Fail(error: E)
}
